=== FILE: README.md ===
# A verified model of a WebRTC group-call signaling app

The system is a browser video-call application with a small signaling
server. This project models its core in Dafny:

- **Signaling server** (`server.js`; `server2.js` runs the same handlers
  behind HTTPS). It holds a registry of sockets, an insertion-ordered map of
  named call members, the current host and the set of guests waiting for
  approval. It handles:
  - host election on `start-call`;
  - the join gate: `request-to-join`, then `approve-join` / `reject-join`;
  - kick and remote mute;
  - relay of `offer` / `answer` / `ice-candidate` to the addressed peer;
  - chat broadcast;
  - host migration when the host's socket closes.

  Only `JSON.parse` is guarded, so an exception thrown by a handler is
  uncaught and ends the server process; a run of the model stops there.
  Two such exceptions are modelled: a body that parses to `null`, and a host
  approving a client that never sent its name.
- **Network client** (`public/js/NetworkClient.js`). It keeps one WebSocket
  at a time. A non-normal close triggers exponential back-off reconnection
  (at most 5 attempts, `2000 * 1.5^(k-1)` ms). Messages sent while the socket
  is not open are queued and flushed on open.
- **Session manager** (`public/js/SessionManager.js`). It holds the client's
  call state and handles user actions and server messages. Per remote peer it
  keeps:
  - a peer connection, abstracted to its signaling state, ICE state, "has
    remote description" flag and the candidates added;
  - a bookkeeping record mirroring the link;
  - a queue of ICE candidates that arrived before the link existed.

  Only the host sends offers. Guests answer. Queued candidates are drained
  once a remote description is in place.
- **Page helpers** (`public/js/UIManager.js`): HTML escaping, avatar
  initials, the name-box rule, alert icons, the video-grid class, and the
  chat box and poll form.

## How the model is built

Each component is a pure step function from a state and one event to the
next state and the outputs. Every handler is atomic, which matches
JavaScript's run-to-completion semantics for the synchronous parts.

- **Browser and environment answers are parameters.** Each handler of the
  session manager takes an `Env` record. It says whether each call succeeds:
  the camera, `new RTCPeerConnection`, setting local and remote
  descriptions, which candidates `addIceCandidate` refuses. It also gives
  the clock and the typed name.
- **The server's fresh uuid is a parameter.** It is the id carried by the
  `Connect` event.
- **Timers are effects and events.** The session manager emits
  `Schedule(timer, delay)` and later receives `TimerDue(timer)`. The network
  client counts armed reconnect timers, and firing one is an event.
- **Wire messages are datatypes** (`Wire`). A relayed negotiation message
  keeps its JSON fields as a `map<string, string>`, so the server's
  `{ ...data, from, fromName }` stamping is modelled exactly (`Stamp`).
- **JavaScript string built-ins are defined in `JsText`:** `trim`,
  `includes`, `split`, `join` and ASCII `toUpperCase`.

Some behaviour of the code that a reader might not expect:

- A remote ICE candidate for a peer that has a link but no remote
  description yet is dropped, not queued. Only a peer without a link gets
  its candidates queued (public/js/SessionManager.js:746-752); otherwise
  `addIceCandidate` refuses the candidate and the refusal is caught
  (public/js/SessionManager.js:762-766).
- The network client has no terminal "connection failed" event. After five
  attempts `handleDisconnection` simply stops calling `attemptReconnect`
  (public/js/NetworkClient.js:76-78).
- The session manager has a `host-changed` case
  (public/js/SessionManager.js:103-105), but the server never sends
  `host-changed`: host migration sends the new host only `set-host`
  (server.js:213).
- The session manager checks only the lower name bound of 2 characters
  (public/js/SessionManager.js:303). The 20-character upper bound is
  enforced only by the page disabling its buttons
  (`EndToEnd.LongNameOnlyBlockedByPage`).
- The host's mute button sends `toggle-remote-mute`
  (public/js/SessionManager.js:232). The server only handles `remote-mute`
  (server.js:146), so the button has no effect (`EndToEnd.HostMuteIsIgnored`).

## Model

| member | source | states |
|---|---|---|
| SignalingServer.OnConnect | server.js:38-45 | a new socket is registered as open under its fresh id and is told that id; nothing else changes |
| SignalingServer.OnStartCall | server.js:62-71 | with no host, the caller is recorded under its name, becomes host and alone is told `set-host`; with a host, nothing happens |
| SignalingServer.OnRequestToJoin | server.js:74-96 | the name is always recorded; with no open host the guest alone is rejected with "No host is available."; a guest already waiting triggers nothing; otherwise the guest becomes pending and only the host gets `request-to-join`, carrying the guest's id and name |
| SignalingServer.OnApproveJoin | server.js:99-121 | non-host approvals are ignored; the host's approval removes the guest from pending; an open guest first gets the roster of every other member, then every open member except the guest gets `peer-joined`; an unnamed guest makes the handler throw after the roster has gone out |
| SignalingServer.OnRejectJoin | server.js:124-132 | non-host rejections are ignored; the host's rejection removes the guest from pending and tells only that guest, if open, "Host rejected the request." |
| SignalingServer.OnKick | server.js:135-143 | only the host kicks, and only an open target: the target alone is told `you-were-kicked` and its socket stops being open |
| SignalingServer.OnRemoteMute | server.js:146-165 | only the host mutes, and only an open target: the target gets `you-were-muted`, then each open member gets `peer-muted`; the state never changes |
| SignalingServer.Stamp | server.js:173 | the relayed message carries the server's `from`, which overrides any client-supplied one; `fromName` is present exactly when the sender has a name; every other field passes through unchanged |
| SignalingServer.OnSignal | server.js:168-176 | exactly one message goes out iff the body names an open `to`: to that socket, of the same kind, stamped with the sender |
| SignalingServer.OnChat | server.js:179-191 | the chat goes to each open named member in insertion order, carrying the sender's id and display name; the state never changes |
| SignalingServer.OnClose | server.js:196-228 | the socket, its pending entry and its name are removed; when the host leaves, the earliest remaining member becomes host (or nobody does) and is told `set-host` first; then each open remaining member gets `peer-disconnected`; an unnamed socket sends nothing |
| SignalingServer.OnMessage | server.js:60-192 | every message keeps the registry invariant: order and names agree, there are no duplicates, names and pending ids are connected, and the host is named |
| SignalingServer.Step | server.js:38-228 | every event (connect, message, parse failure, `null` body, drop, close) keeps the registry invariant; of the failures modelled, a handler throws exactly when a connected client sends a `null` body or a host approves an open client that never sent its name |
| SignalingServer.Run | server.js:38-228 | any sequence of events from a valid registry leaves a valid registry while the server is up; the first handler that throws ends the process |
| SignalingServer.Recipients | server.js:180-190 | the receivers of a list of sends, in order and position by position |
| SignalingServer.KeptMembers | server.js:207 | filtering the member order keeps exactly the members that pass, and keeps them duplicate-free |
| ServerProperties.OnlyHostModerates | server.js:99-165 | approve, reject, kick and mute from anyone but the host change nothing and send nothing |
| ServerProperties.UnhandledIgnored | server.js:60-192 | message types without a case in the switch (private message, hand state, polls, leave, toggle-remote-mute) change nothing and send nothing |
| ServerProperties.RepeatedJoinRequestForwardsNothing | server.js:84-93 | the host hears of a waiting guest at most once: a second request only renames it |
| ServerProperties.StartCallElectsOnce | server.js:62-71 | the first `start-call` elects its sender; any later one from anyone is ignored |
| ServerProperties.HostMigration | server.js:206-215 | on the host's close, the earliest remaining member becomes host and is the first to be told |
| ServerProperties.DepartureNotice | server.js:221-226 | after any `set-host`, the close sends exactly one `peer-disconnected` to each open remaining member and to nobody else |
| ServerProperties.BroadcastReach | server.js:180-190 | a broadcast reaches exactly the open ids of the list |
| ServerProperties.GuestCloseKeepsHost | server.js:206 | a guest leaving never changes the host |
| ServerProperties.RelayStampsSender | server.js:168-176 | a relayed message always names its true sender and goes only to the addressed peer; nothing goes out iff the addressee is missing or not open |
| ServerProperties.RemoteMuteReachesEveryone | server2.js:144-163 | a host's mute reaches the target first, then every open member exactly once, the host and target included |
| ServerProperties.ChatReachesEveryone | server2.js:175-187 | chat reaches every open member exactly once, stamped with the sender's id |
| ServerProperties.RejectedGuestStaysListed | server.js:74-80 | a rejected guest keeps its name entry, so it still receives chat broadcasts |
| ServerProperties.NullBodyCrashes | server.js:47-60 | a connected client's `null` body throws, sends nothing, and no later event is handled |
| ServerProperties.ApprovingUnnamedClientThrows | server.js:99-121 | approving a connected client that never sent a name sends the roster and then throws, and the server handles nothing after it |
| ServerProperties.AliceAdmitsBob | server.js:62-121 | a worked run: start, request, approve gives Bob the roster [Alice] and tells Alice that Bob joined |
| ServerProperties.AliceStartsCall | server.js:37-70 | two connections and a `start-call` leave the first client hosting a call of one |
| ServerProperties.BobAsksToJoin | server.js:73-96 | a join request names the guest, queues it for the host and forwards it to the host |
| ServerProperties.AliceApprovesBob | server.js:99-121 | approving a named guest sends it the roster of the others and tells the others it joined |
| ServerProperties.RunCons | server.js:47-56 | a run stops at its first event if that event's handler throws and otherwise continues from the state it leaves |
| ServerProperties.RunAppend | server.js:47-56 | running two event sequences back to back is running the first and then, if the server is still up, the second; a crash is final |
| ServerProperties.ThrowEndsRun | server.js:47-56 | if a handler throws while the server is up, the whole run ends crashed whatever events follow |
| ServerProperties.CrashHasCause | server.js:47-56 | a crashed run contains an event that reached a throwing handler while the server was up |
| ServerProperties.CrashesIffSomeHandlerThrows | server.js:47-56 | the server crashes exactly when some event reaches a modelled throwing handler while it is up |
| Transport.Delay | public/js/NetworkClient.js:86 | the wait before attempt k is never below the 2000 ms base, and the first attempt waits exactly 2000 ms |
| Transport.DelayGrows | public/js/NetworkClient.js:86 | each reconnect waits exactly half again as long as the one before |
| Transport.DelaySchedule | public/js/NetworkClient.js:84-86 | the five attempts the cap allows wait 2000, 3000, 4500, 6750 and 10125 ms |
| Transport.Send | public/js/NetworkClient.js:116-130 | on an open socket the message is written unless the write throws, and the queue is untouched; otherwise it is appended to the queue and nothing is written |
| Transport.FlushPendingMessages | public/js/NetworkClient.js:135-144 | the loop computes the closed form `Flushed`: the message whose send fails goes back to the head of the queue, and the loop stops there |
| Transport.Flushed | public/js/NetworkClient.js:135-144 | only the queue changes. On an open socket the messages written, followed by what remains queued, are exactly the old queue in order, and the first `min(accepted, n)` are written. On a socket that is not open nothing is written and the head is queued twice, at the tail and again at the head |
| Transport.QueuedSendsFlushInOrder | public/js/NetworkClient.js:116-144 | messages sent while the socket is not open are all queued, none is written, and an open that accepts every send writes them in the order sent, behind the earlier queue, leaving nothing queued |
| Transport.ConnectNow | public/js/NetworkClient.js:24-34 | connecting creates a CONNECTING socket, or reports a creation error and changes nothing |
| Transport.Disconnected | public/js/NetworkClient.js:71-101 | a close always reports the code and reason; a non-normal close under the cap announces attempt n+1 of 5 and arms one timer with `Delay(n+1)`; a normal close or a spent cap reconnects no more; queued messages are kept |
| Transport.Close | public/js/NetworkClient.js:149-155 | `close()` as written: the cap is raised to 5 and the client is disconnected, but timers already armed stay armed |
| Transport.CloseCancelling | public/js/NetworkClient.js:149-155 | `close()` as evidently intended: the same, with no armed timer left and no socket open or connecting |
| Transport.Step | public/js/NetworkClient.js:24-155 | every event keeps the attempt counter within the cap of 5; 'open' on a CONNECTING socket marks the client connected, resets the attempt counter to 0 and sends the queue's head in order, keeping the rest queued, while 'open' on any other socket changes nothing; a fired reconnect timer only disarms itself when the client is connected, and otherwise opens a new CONNECTING socket or reports the creation error |
| Transport.StepWith | public/js/NetworkClient.js:39-100 | the same rules for 'open' and for a fired timer hold whichever `close()` is chosen |
| Transport.Run | public/js/NetworkClient.js:24-155 | any sequence of events keeps the attempt counter within the cap |
| Transport.CountReconnectingAppend | public/js/NetworkClient.js:90-94 | counting reconnect notices is additive over concatenation |
| Transport.ReconnectsBounded | public/js/NetworkClient.js:71-101 | until the socket opens again, the reconnect attempts announced never exceed what the cap leaves |
| Transport.NoReconnectNoticeAfterClose | public/js/NetworkClient.js:149-155 | after `close()`, no disconnection announces a reconnect attempt until the socket opens again |
| Transport.ReconnectsAfterClose | public/js/NetworkClient.js:149-155 | the finding, as written: a reconnect timer armed before `close()` still reconnects, and the socket opens again |
| Transport.StaysClosedAfterCancellingClose | public/js/NetworkClient.js:149-155 | with the corrected `close()`, no event but the application's own `connect()` reopens the connection |
| Transport.StaysShutDown | public/js/NetworkClient.js:149-155 | a shut-down client with no armed timer stays shut down under every event but `connect()` |
| Transport.ConnectionState | public/js/NetworkClient.js:160-175 | each of the four state names corresponds to exactly its ready states; no socket counts as disconnected |
| JsText.SkipSpaces | public/js/UIManager.js:226 | the index reached is the first non-whitespace character at or after the start, or the end of the string, and every character skipped is whitespace |
| JsText.BackOverSpaces | public/js/UIManager.js:226 | the index reached lies just past the last non-whitespace character of the range, or at the range's start, and every character passed over is whitespace |
| JsText.Trim | public/js/UIManager.js:226 | the result is the slice of the input between its leading and its trailing whitespace: everything before and after it is whitespace, and the result itself neither begins nor ends with whitespace |
| JsText.TrimFixed | public/js/UIManager.js:226 | a string with no surrounding whitespace is its own trim |
| JsText.TrimIdempotent | public/js/UIManager.js:226 | trimming twice is trimming once |
| JsText.Includes | public/js/SessionManager.js:776-779 | `includes` is true iff the substring occurs at some position |
| JsText.Split | public/js/UIManager.js:941 | `split` gives at least one piece, and no piece contains the separator |
| JsText.JoinSplit | public/js/UIManager.js:941 | joining the pieces of a split with the same separator gives back the string |
| JsText.SplitJoin | public/js/UIManager.js:941 | splitting a join of separator-free pieces gives back the pieces |
| JsText.AsciiUpper | public/js/UIManager.js:941 | lower-case ASCII letters become their capitals, and every other character is kept |
| JsText.Upper | public/js/UIManager.js:941 | upper-casing keeps the length and works character by character |
| PeerLink.NewRecord | public/js/SessionManager.js:470-475 | a new record mirrors a fresh link, with ICE 'new' and signaling 'stable', created now |
| PeerLink.FreshIsReusable | public/js/SessionManager.js:429-431 | a fresh link always passes the reuse rule |
| PeerLink.CandidateType | public/js/SessionManager.js:773-782 | 'unknown' iff no `typ` marker occurs; otherwise the first of host, srflx, relay, prflx that occurs |
| PeerLink.AcceptedAppend | public/js/SessionManager.js:835-853 | the accepted candidates of a concatenation are the accepted of each part, in order |
| PeerLink.AcceptedMembers | public/js/SessionManager.js:845-853 | a candidate is added iff it was queued and not refused |
| PeerLink.DrainQueue | public/js/SessionManager.js:829-856 | without a remote description the whole queue stays and a retry is due; otherwise exactly the accepted candidates are added behind the existing ones, in queue order, and the queue empties; nothing else about the link changes |
| SessionManager.SetLink | public/js/SessionManager.js:500-504 | replacing a link keeps every record mirroring its link and keeps the creation time |
| SessionManager.ClosePeer | public/js/SessionManager.js:864-873 | closing drops exactly that peer's link and record; the candidate queue and all else stay |
| SessionManager.GetOrCreate | public/js/SessionManager.js:423-443 | a reusable link is returned untouched; otherwise it is closed and, if creation succeeds, replaced by a fresh link with a new record; other peers are untouched and a link exists afterwards iff the result says so |
| SessionManager.SendOffer | public/js/SessionManager.js:629-659 | at most one offer goes out, addressed to the peer, and only when the link ends in 'have-local-offer'; queues and host status are untouched |
| SessionManager.HandleOffer | public/js/SessionManager.js:664-696 | when the link is available and the browser accepts both descriptions, the link has the remote description and is 'stable', and the answer is sent between the 100 ms check and the 200 ms drain; on any failure nothing is sent |
| SessionManager.Flush | public/js/SessionManager.js:820-859 | with no link or an empty queue, nothing happens; without a remote description the queue stays and a 100 ms retry is armed; otherwise the accepted candidates are added to the link in order and the queue is deleted; other peers are untouched |
| SessionManager.Answered | public/js/SessionManager.js:713-716 | after a remote answer the link has its remote description and is 'stable' |
| SessionManager.HandleAnswer | public/js/SessionManager.js:701-738 | with no link nothing happens; a refused answer in 'have-local-offer' stops without flushing; in 'stable' the answer is ignored and only the flush runs; an accepted answer arms the 100 ms check and then flushes |
| SessionManager.HandleIceCandidate | public/js/SessionManager.js:743-768 | with no link the candidate joins the tail of the peer's queue; with a link it is added only when non-empty, after a remote description, and not refused; otherwise it is dropped; nothing is ever sent |
| SessionManager.Restart | public/js/SessionManager.js:563-585 | a link older than 30 s is closed; only the host sends a new offer, on a fresh link created now |
| SessionManager.Leave | public/js/SessionManager.js:997-1024 | leaving tells the server and forgets every link, record and queue, host status, name and camera; the id, call id, hand and poll stay |
| SessionManager.CallAction | public/js/SessionManager.js:295-328 | the trimmed name is stored; a request goes out only for a name of at least 2 characters with the camera granted: `start-call`, or `request-to-join` with the page's call id |
| SessionManager.OnUser | public/js/SessionManager.js:201-290 | every user action keeps links and records in step |
| SessionManager.OnServer | public/js/SessionManager.js:73-196 | every server message keeps links and records in step |
| SessionManager.Step | public/js/SessionManager.js:478-540 | every event, including ICE changes, local candidates, timers and unload, keeps links and records in step |
| SessionManager.Run | public/js/SessionManager.js:73-290 | any sequence of events keeps links and records in step |
| SessionProperties.ReuseRule | public/js/SessionManager.js:423-443 | an existing link survives iff its record allows reuse; otherwise the replacement has a new record |
| SessionProperties.FlushSendsNoOffer | public/js/SessionManager.js:820-859 | draining the queue never sends an offer |
| SessionProperties.AnswerSendsNoOffer | public/js/SessionManager.js:701-738 | handling an answer never sends an offer |
| SessionProperties.UserSendsNoOffer | public/js/SessionManager.js:201-290 | no user action sends an offer |
| SessionProperties.GuestServerMessageSendsNoOffer | public/js/SessionManager.js:73-196 | no server message makes a guest send an offer |
| SessionProperties.OnlyHostOffers | public/js/SessionManager.js:881-917 | no event of any kind makes a guest send an offer |
| SessionProperties.OffersOnPeerJoined | public/js/SessionManager.js:881-917 | a host that hears of a new peer offers to it when the browser cooperates; a guest ignores `peer-joined`; `join-approved` sends nothing |
| SessionProperties.HostGating | public/js/SessionManager.js:214-267 | kick, mute and poll start are sent iff the user is host, and poll end iff the host has a poll running; at most one message; nothing local changes |
| SessionProperties.JoinDecisionsUngated | public/js/SessionManager.js:214-222 | approve and reject are sent whoever clicks and change nothing locally |
| SessionProperties.ToggleHandTwice | public/js/SessionManager.js:248-252 | raising the hand flips the flag and announces the new value; doing it twice restores the session |
| SessionProperties.TeardownLeavesNothing | public/js/SessionManager.js:997-1024 | leaving, being kicked and being rejected all leave no link, record or queue, drop host status and name, and tell the server |
| SessionProperties.PeerLeftClosesOnlyThatLink | public/js/SessionManager.js:864-873 | a departed peer's link and record go, and nothing else does |
| SessionProperties.QueueKeepsArrivalOrder | public/js/SessionManager.js:745-752 | candidates arriving before the link exists are queued in arrival order behind what was queued, and nothing else changes |
| SessionProperties.FlushLosesNothing | public/js/SessionManager.js:820-859 | an unrefused queued candidate is either still queued or now added to the link |
| SessionProperties.AnswerDecision | public/js/SessionManager.js:701-738 | without a link an answer is a no-op; in 'stable' the link keeps its state and description, and only the flush may add candidates |
| Ui.ReplaceAll | public/js/UIManager.js:949-953 | a global replacement never shortens the string, removes the character when the replacement lacks it, and introduces no character absent from both |
| Ui.ReplaceAllAppend | public/js/UIManager.js:949-953 | a global replacement distributes over concatenation |
| Ui.ReplaceAllAbsent | public/js/UIManager.js:949-953 | replacing a character the string lacks changes nothing |
| Ui.EscapeHtml | public/js/UIManager.js:947-954 | the escaped text contains no `<`, `>`, `"` or `'` and is no shorter |
| Ui.EscapeOne | public/js/UIManager.js:947-954 | one character becomes exactly its entity, or stays as it is |
| Ui.EscapeAppend | public/js/UIManager.js:947-954 | escaping distributes over concatenation |
| Ui.EscapeIsPerCharacter | public/js/UIManager.js:947-954 | the chain of replacements equals the per-character entity map, so no entity is escaped twice |
| Ui.EscapeIdentityOnPlainText | public/js/UIManager.js:947-954 | text without the five special characters is left as it is |
| Ui.HeadsOfSplit | public/js/UIManager.js:941 | the first characters of the pieces of `split(' ')` are exactly the characters that start a word |
| Ui.Initials | public/js/UIManager.js:940-942 | at most two characters: the upper-cased starts of the first words |
| Ui.WordStartsAppend | public/js/UIManager.js:941 | the word starts of a concatenation are those of each part, the second continuing after the first's last character |
| Ui.DoubledSpaceIgnored | public/js/UIManager.js:941 | doubling a space between words changes no initials |
| Ui.ValidateNameInput | public/js/UIManager.js:223-232 | the name is valid iff its trimmed length is between 2 and 20, and both buttons are disabled exactly when it is not |
| Ui.ValidationIgnoresPadding | public/js/UIManager.js:223-232 | surrounding whitespace never decides validity |
| Ui.AlertIconAsWritten | public/js/UIManager.js:927-935 | own keys give their class, an inherited `Object.prototype` name gives that member, anything else gives the default |
| Ui.AlertIcon | public/js/UIManager.js:927-935 | the corrected lookup always gives one of the four icon classes: the own key's class, or the default |
| Ui.InheritedKeyLeaks | public/js/UIManager.js:927-935 | the finding: "toString" yields a function as written and the default icon when corrected |
| Ui.AlertIconAgreesOffPrototype | public/js/UIManager.js:927-935 | off the inherited names the two lookups agree |
| Ui.GridLayout | public/js/UIManager.js:619-631 | other classes are kept; 'layout-1' is present iff one video, 'layout-2' iff two, and 'layout-3-4' never |
| Ui.GridLayoutIdempotent | public/js/UIManager.js:619-631 | recomputing the layout for the same count changes nothing |
| Ui.SendChatMessage | public/js/UIManager.js:245-259 | blank text does nothing; otherwise the trimmed text goes privately to the chosen target or publicly, and the box and target are cleared |
| Ui.PrivateTargetUsedOnce | public/js/UIManager.js:251-256 | a private target is used for one message only; the next goes to everyone |
| Ui.HandleStartPoll | public/js/UIManager.js:299-310 | a poll starts iff the question and both options are non-blank, with the trimmed texts and the two options in order |
| EndToEnd.HostMuteIsIgnored | public/js/SessionManager.js:230-234 | the host's mute button sends a type the server has no case for, so nobody is muted |
| EndToEnd.OfferReachesPeerFromSender | server.js:168-176 | an offer to an open peer reaches it once, and it is handled as an offer from the real sender |
| EndToEnd.AcceptedNameStartsCall | public/js/UIManager.js:223-232 | a name the page accepts passes the session manager's checks, so the call starts under the trimmed name |
| EndToEnd.LongNameOnlyBlockedByPage | public/js/SessionManager.js:295-328 | a name whose trimmed length exceeds 20 is refused by the page, yet the session manager still starts the call under it |
| EndToEnd.ChatBoxToWire | public/js/UIManager.js:245-259 | a non-blank chat reaches the wire trimmed, privately or as a broadcast |
| EndToEnd.PollFormToWire | public/js/UIManager.js:299-310 | a poll from the form reaches the wire only from the host, trimmed and in order |

## Left out

- `public/js/main.js` and `public/js/hotfix.js` (start-up wiring and a DOM patch): they are glue, not part of the core.
- Media capture: `startLocalStream` and its error messages, `toggleMic` and `toggleVideo`. The model has one oracle answer, whether the camera was granted. Track toggling only changes the browser's tracks and the page.
- DOM rendering, alerts, modals, status text, time formatting and poll percentages: presentation only.
- `getStats`, `logConnectionStats` and `monitorConnectionProgress`: logging.
- SDP contents: offers and answers carry no description body in the model. The browser's acceptance is an oracle.
- Asynchronous interleavings inside one handler: every handler runs as one atomic step. Where a refusal is caught midway, the work already done is kept.
- The delayed drain retry captures the old connection and queue array. The model re-runs the drain on the current link and queue.
- The 100 ms check (`SessionManager.js:536-540`) is gated on the current link.
- String lengths: JavaScript measures them in UTF-16 code units, and the model counts characters.
- `toUpperCase` is modelled for ASCII letters only.
- Absent JSON fields on relayed messages read as the empty string.
- A server message that fails `JSON.parse` is a no-op. Its logging is left out.
- The Express and HTTPS server set-up of `server.js` and `server2.js`.
- Client message types the server never handles: the model proves they are ignored.
- `copyInviteLink` (clipboard) and `isHost` (a query whose return value only the page uses).
- Transport notices: the session manager only turns them into alerts.
- `SessionManager.Restart`: `restartPeerConnection` has no caller in the source. It is modelled but not reachable from `Step`.
- `SignalingServer.Step`: JSON field values are strings in the model. A client may send a number, `null` or an object as `name`; an object whose string conversion throws (`{"toString":1}`) ends the server at the template literal of server.js:69, and an object name stored by `request-to-join` makes the log line of server.js:58 throw on that client's later messages. These crashes are not modelled, so `Throws` covers the `null` body and the unnamed approval only.
- `Transport.Delay`: modelled as an exact rational. JavaScript's floating-point `Math.pow(1.5, k-1)` is exact for the five attempts that can happen.
- `SessionManager.OnUser`: its contract states only the link/record invariant. What each action sends is stated by `SessionProperties.HostGating`, `JoinDecisionsUngated`, `ToggleHandTwice` and `TeardownLeavesNothing`.
- `SessionManager.OnServer`: its contract states only the link/record invariant. What the messages do is stated by the `SessionProperties` lemmas and by `EndToEnd.OfferReachesPeerFromSender`.

## Findings

| source | as written | input that shows it | evidently intended | confidence | as-written member | corrected member |
|---|---|---|---|---|---|---|
| public/js/NetworkClient.js:149-155 | `close()` sets the attempt counter to the cap and closes the socket, but does not clear a reconnect timer that is already armed | connect; open; close with code 1006 (a timer is armed); `close()`; the timer fires; open. The client is connected again | after `close()` no reconnection happens until the application calls `connect()` | medium; latent, since nothing in the application calls `close()` (besides `send`, the session manager only calls `connect()` at public/js/SessionManager.js:55 and `setClientId` at public/js/SessionManager.js:80); not executed | Transport.ReconnectsAfterClose | Transport.StaysClosedAfterCancellingClose |
| public/js/SessionManager.js:230-234 | the host's mute button sends `toggle-remote-mute`, but the server's switch handles only `remote-mute` (server.js:146, server2.js:144) | the host mutes an open guest: the client sends `toggle-remote-mute`, the server changes nothing and sends nothing | the target gets `you-were-muted` and every open member gets `peer-muted` | high; every click of the button is ignored; not executed | EndToEnd.HostMuteIsIgnored | ServerProperties.RemoteMuteReachesEveryone |
| public/js/UIManager.js:927-935 | `icons[type] \|\| default` also finds the members inherited from `Object.prototype` | `getAlertIcon("toString")` returns a function, not a class name | unknown types get the default icon | low (callers pass literal levels), not executed | Ui.InheritedKeyLeaks | Ui.AlertIcon |

=== FILE: actions.dfy ===
/** The user actions the page hands to the session manager: the `(action,
    payload)` pairs UIManager passes to `handleUserAction`
    (public/js/SessionManager.js:201-290). */
module Actions {
  import opened Common
  import opened Wire

  datatype Action =
    | StartCallAction                                    // 'start-call'
    | JoinCallAction                                     // 'join-call'
    | ApproveAction(guest: Id)                           // 'approve-join'
    | RejectAction(guest: Id)                            // 'reject-join'
    | KickAction(target: Id)                             // 'kick-user'
    | MuteAction(target: Id, shouldMute: bool)           // 'remote-mute'
    | LeaveAction                                        // 'leave-call'
    | ToggleMicAction                                    // 'toggle-mic'
    | ToggleVideoAction                                  // 'toggle-video'
    | ToggleHandAction                                   // 'toggle-hand'
    | StartPollAction(poll: Poll)                        // 'start-poll'
    | SubmitVoteAction(vote: Vote)                       // 'submit-vote'
    | EndPollAction                                      // 'end-poll'
    | SendChatAction(text: string)                       // 'send-chat'
    | SendPrivateChatAction(recipient: Id, text: string) // 'send-private-chat'
    | CopyInviteLinkAction                               // 'copy-invite-link'
    | IsHostAction                                       // 'is-host'
    | OtherAction(name: string)                          // any other action name
}

=== FILE: common.dfy ===
/** Small shared vocabulary: an optional value, opaque client ids, and a few
    helpers that mirror JavaScript library behaviour used across the model. */
module Common {

  /** The conventional Some/None datatype, standing in for `undefined`/`null`. */
  datatype Option<+T> = None | Some(value: T) {
    function GetOr(default: T): T {
      match this
      case Some(v) => v
      case None => default
    }
  }

  /** An opaque client identifier (a uuid string on the wire). */
  type Id = string

  /** `m.get(k)` of a JavaScript Map: the value, or nothing when the key is absent. */
  function Lookup<K, V>(m: map<K, V>, k: K): (r: Option<V>)
    ensures r.Some? <==> k in m
    ensures r.Some? ==> r.value == m[k]
  {
    if k in m then Some(m[k]) else None
  }

  /** `s.substring(0, n)`: the first n characters, or all of s when it is shorter. */
  function Prefix(s: string, n: nat): (r: string)
    ensures |r| == if |s| < n then |s| else n
    ensures r <= s
  {
    if |s| <= n then s else s[..n]
  }

  /** No element occurs twice. */
  ghost predicate Distinct<T>(xs: seq<T>) {
    forall i, j :: 0 <= i < j < |xs| ==> xs[i] != xs[j]
  }
}

=== FILE: end_to_end.dfy ===
/** Properties that cross component boundaries: what the page hands the
    session manager, what the session manager sends, and what the server
    does with it. */
module EndToEnd {
  import opened Common
  import opened Wire
  import opened JsText
  import opened Actions
  import Server = SignalingServer
  import ServerProperties
  import Client = SessionManager
  import Ui

  /** The host's mute button never mutes anyone: the client sends
      `toggle-remote-mute`, a type the server's switch has no case for, so
      the server changes nothing and sends nothing. */
  lemma HostMuteIsIgnored(sess: Client.Session, target: Id, mute: bool, env: Client.Env,
                          srv: Server.State, c: Id)
    requires Client.Valid(sess) && sess.isHost && Server.Valid(srv)
    ensures var r := Client.Step(sess, Client.User(MuteAction(target, mute)), env);
            && r.effects == [Client.Send(ToggleRemoteMute(target, mute))]
            && Server.Step(srv, Server.Message(c, r.effects[0].msg)) == Server.Quiet(srv)
  {
    ServerProperties.UnhandledIgnored(srv, c, ToggleRemoteMute(target, mute));
  }

  /** An offer a client addresses to an open peer reaches that peer once,
      and the peer handles it as an offer from the real sender. */
  lemma OfferReachesPeerFromSender(srv: Server.State, a: Id, b: Id, peer: Client.Session, env: Client.Env)
    requires Server.Valid(srv) && a in srv.clients && Server.IsOpen(srv, b)
    requires Client.Valid(peer)
    ensures var r := Server.Step(srv, Server.Message(a, Signal(Offer, Client.To(b))));
            && |r.sent| == 1 && r.sent[0].to == b
            && Client.Step(peer, Client.FromServer(r.sent[0].msg), env) == Client.HandleOffer(peer, a, env)
  {
    OfferRelayedOnce(srv, a, b);
    var r := Server.Step(srv, Server.Message(a, Signal(Offer, Client.To(b))));
    RelayedOfferFromSender(peer, a, r.sent[0].msg.fields, env);
  }

  /** The server relays an offer addressed to an open peer to that peer
      only, stamped with the sender's id. */
  lemma OfferRelayedOnce(srv: Server.State, a: Id, b: Id)
    requires Server.Valid(srv) && a in srv.clients && Server.IsOpen(srv, b)
    ensures var r := Server.Step(srv, Server.Message(a, Signal(Offer, Client.To(b))));
            && |r.sent| == 1 && r.sent[0].to == b && r.sent[0].msg.Relayed?
            && r.sent[0].msg.kind == Offer
            && "from" in r.sent[0].msg.fields && r.sent[0].msg.fields["from"] == a
  {
    assert Client.To(b)["to"] == b;
  }

  /** The session manager handles a relayed offer as an offer from the id
      the server stamped on it. */
  lemma RelayedOfferFromSender(peer: Client.Session, a: Id, fields: Fields, env: Client.Env)
    requires Client.Valid(peer) && "from" in fields && fields["from"] == a
    ensures Client.Step(peer, Client.FromServer(Relayed(Offer, fields)), env) == Client.HandleOffer(peer, a, env)
  {
  }

  /** A name the page accepts also passes the session manager's own checks,
      so with the camera granted the call request goes out under that
      name. */
  lemma AcceptedNameStartsCall(sess: Client.Session, env: Client.Env)
    requires Ui.ValidateNameInput(env.typedName).valid && env.mediaOk
    ensures var r := Client.CallAction(sess, true, env);
            r.effects == [Client.Send(StartCall(Trim(env.typedName)))]
  {
  }

  /** The session manager checks only the lower bound: a name longer than
      20 characters keeps the buttons disabled, but reaching the action
      anyway starts the call under it. */
  lemma LongNameOnlyBlockedByPage(sess: Client.Session, env: Client.Env)
    requires |Trim(env.typedName)| > Ui.MaxNameLength && env.mediaOk
    ensures !Ui.ValidateNameInput(env.typedName).valid
    ensures Client.CallAction(sess, true, env).effects == [Client.Send(StartCall(Trim(env.typedName)))]
  {
  }

  /** A chat message from the box reaches the wire non-blank and trimmed:
      privately to the chosen target, otherwise as a broadcast. */
  lemma ChatBoxToWire(box: Ui.ChatBox, sess: Client.Session, env: Client.Env)
    requires Client.Valid(sess) && Trim(box.input) != []
    ensures var (_, action) := Ui.SendChatMessage(box);
            action.Some? &&
            Client.Step(sess, Client.User(action.value), env).effects ==
              [Client.Send(if box.target.Some? then PrivateMessage(box.target.value.id, Trim(box.input))
                           else ChatMessage(Trim(box.input)))]
  {
  }

  /** A poll from the form reaches the wire only from the host, with the
      trimmed question and the two options in order. */
  lemma PollFormToWire(q: string, o1: string, o2: string, sess: Client.Session, env: Client.Env)
    requires Client.Valid(sess)
    ensures var a := Ui.HandleStartPoll(q, o1, o2);
            a.Some? ==>
              Client.Step(sess, Client.User(a.value), env).effects ==
                (if sess.isHost then [Client.Send(CreatePoll(Poll(Trim(q), [Trim(o1), Trim(o2)])))] else [])
  {
  }
}

=== FILE: jstext.dfy ===
/** The JavaScript string library calls the client relies on: `trim`,
    `includes`, `split(' ')` and `join`, and upper-casing, on strings of
    characters. */
module JsText {

  /** The characters `String.prototype.trim` removes: ECMAScript WhiteSpace
      and LineTerminator. */
  predicate IsSpace(c: char) {
    || c == '\t' || c == '\n' || c == '\U{000B}' || c == '\U{000C}' || c == '\r' || c == ' '
    || c == '\U{00A0}' || c == '\U{1680}' || ('\U{2000}' <= c <= '\U{200A}')
    || c == '\U{2028}' || c == '\U{2029}' || c == '\U{202F}' || c == '\U{205F}'
    || c == '\U{3000}' || c == '\U{FEFF}'
  }

  /** The index of the first non-space at or after i, or |s| when there is
      none: everything skipped is whitespace. */
  function SkipSpaces(s: string, i: nat): (j: nat)
    requires i <= |s|
    ensures i <= j <= |s|
    ensures forall k :: i <= k < j ==> IsSpace(s[k])
    ensures j < |s| ==> !IsSpace(s[j])
    decreases |s| - i
  {
    if i < |s| && IsSpace(s[i]) then SkipSpaces(s, i + 1) else i
  }

  /** Walking back from j no further than lo, the index just past the last
      non-space, or lo when there is none: everything passed is whitespace. */
  function BackOverSpaces(s: string, lo: nat, j: nat): (m: nat)
    requires lo <= j <= |s|
    ensures lo <= m <= j
    ensures forall k :: m <= k < j ==> IsSpace(s[k])
    ensures lo < m ==> !IsSpace(s[m - 1])
    decreases j
  {
    if lo < j && IsSpace(s[j - 1]) then BackOverSpaces(s, lo, j - 1) else j
  }

  /** `s.trim()`: the slice of s left once the leading and the trailing
      whitespace are cut off, which neither begins nor ends with whitespace. */
  function Trim(s: string): (r: string)
    ensures r == [] || (!IsSpace(r[0]) && !IsSpace(r[|r| - 1]))
    ensures |r| <= |s|
    ensures var i := SkipSpaces(s, 0);
            && i + |r| <= |s| && r == s[i..i + |r|]
            && (forall k :: 0 <= k < i ==> IsSpace(s[k]))
            && (forall k :: i + |r| <= k < |s| ==> IsSpace(s[k]))
  {
    var i := SkipSpaces(s, 0);
    s[i..BackOverSpaces(s, i, |s|)]
  }

  /** A string with no whitespace at either end is its own trim. */
  lemma TrimFixed(s: string)
    requires s == [] || (!IsSpace(s[0]) && !IsSpace(s[|s| - 1]))
    ensures Trim(s) == s
  {
  }

  /** Trimming twice is trimming once. */
  lemma TrimIdempotent(s: string)
    ensures Trim(Trim(s)) == Trim(s)
  {
    TrimFixed(Trim(s));
  }

  /** sub occurs in s starting at index i. */
  predicate OccursAt(s: string, sub: string, i: int) {
    0 <= i && i + |sub| <= |s| && s[i..i + |sub|] == sub
  }

  /** `s.includes(sub)`: sub occurs somewhere in s. */
  function Includes(s: string, sub: string): (b: bool)
    ensures b <==> exists i :: OccursAt(s, sub, i)
    decreases |s|
  {
    if sub <= s then
      assert OccursAt(s, sub, 0);
      true
    else if |s| <= |sub| then
      assert forall i :: !OccursAt(s, sub, i) by {
        forall i | 0 <= i && i + |sub| <= |s|
          ensures !OccursAt(s, sub, i)
        {
          assert s[i..i + |sub|] == s;
        }
      }
      false
    else
      var b := Includes(s[1..], sub);
      assert forall i :: OccursAt(s, sub, i) && i >= 1 ==> OccursAt(s[1..], sub, i - 1) by {
        forall i | OccursAt(s, sub, i) && i >= 1
          ensures OccursAt(s[1..], sub, i - 1)
        {
          assert s[1..][i - 1..i - 1 + |sub|] == s[i..i + |sub|];
        }
      }
      assert !OccursAt(s, sub, 0);
      if b then
        var j :| OccursAt(s[1..], sub, j);
        assert s[1..][j..j + |sub|] == s[j + 1..j + 1 + |sub|];
        assert OccursAt(s, sub, j + 1);
        true
      else
        false
  }

  /** `s.split(sep)` for a one-character separator: the pieces between
      separators, empty pieces included, and always at least one piece. */
  function Split(s: string, sep: char): (parts: seq<string>)
    ensures |parts| >= 1
    ensures forall i :: 0 <= i < |parts| ==> sep !in parts[i]
    decreases |s|
  {
    if s == [] then [[]]
    else
      var rest := Split(s[1..], sep);
      if s[0] == sep then [[]] + rest
      else [[s[0]] + rest[0]] + rest[1..]
  }

  /** `parts.join(sep)`. */
  function Join(parts: seq<string>, sep: char): string
    requires |parts| >= 1
    decreases |parts|
  {
    if |parts| == 1 then parts[0] else parts[0] + [sep] + Join(parts[1..], sep)
  }

  /** Joining the pieces of a split gives back the original string. */
  lemma {:induction false} JoinSplit(s: string, sep: char)
    ensures Join(Split(s, sep), sep) == s
    decreases |s|
  {
    if s != [] {
      var rest := Split(s[1..], sep);
      JoinSplit(s[1..], sep);
      if s[0] == sep {
        assert ([[]] + rest)[1..] == rest;
      } else {
        var parts := [[s[0]] + rest[0]] + rest[1..];
        if |rest| > 1 {
          assert parts[1..] == rest[1..];
          assert Join(rest, sep) == rest[0] + [sep] + Join(rest[1..], sep);
        }
      }
    }
  }

  /** Splitting a string that starts with c: a separator opens a new empty
      piece, any other character joins the first piece. */
  lemma SplitCons(c: char, x: string, sep: char)
    ensures Split([c] + x, sep) ==
      if c == sep then [[]] + Split(x, sep)
      else [[c] + Split(x, sep)[0]] + Split(x, sep)[1..]
  {
    assert ([c] + x)[0] == c && ([c] + x)[1..] == x;
  }

  /** A join whose first piece is non-empty starts with that piece's first
      character, followed by the join with that character dropped. */
  lemma JoinHead(parts: seq<string>, sep: char)
    requires |parts| >= 1 && parts[0] != []
    ensures Join(parts, sep) == [parts[0][0]] + Join([parts[0][1..]] + parts[1..], sep)
  {
    var p := parts[0];
    var tail := [p[1..]] + parts[1..];
    assert tail[0] == p[1..] && tail[1..] == parts[1..] && |tail| == |parts|;
    assert p == [p[0]] + p[1..];
  }

  /** A join whose first piece is empty starts with the separator. */
  lemma JoinEmptyHead(parts: seq<string>, sep: char)
    requires |parts| > 1 && parts[0] == []
    ensures Join(parts, sep) == [sep] + Join(parts[1..], sep)
  {
  }

  /** Splitting a join of separator-free pieces gives back the pieces. */
  lemma {:induction false} SplitJoin(parts: seq<string>, sep: char)
    requires |parts| >= 1
    requires forall i :: 0 <= i < |parts| ==> sep !in parts[i]
    ensures Split(Join(parts, sep), sep) == parts
    decreases |parts|, |parts[0]|
  {
    if parts[0] != [] {
      var p := parts[0];
      var tail := [p[1..]] + parts[1..];
      assert forall i :: 0 <= i < |tail| ==> sep !in tail[i] by {
        forall i | 0 <= i < |tail|
          ensures sep !in tail[i]
        {
          if i == 0 {
            assert forall x :: x in p[1..] ==> x in p;
          } else {
            assert tail[i] == parts[i];
          }
        }
      }
      SplitJoin(tail, sep);
      JoinHead(parts, sep);
      assert p[0] != sep by {
        assert p[0] in p;
      }
      SplitCons(p[0], Join(tail, sep), sep);
      assert [[p[0]] + p[1..]] + parts[1..] == parts by {
        assert [p[0]] + p[1..] == p;
      }
    } else if |parts| > 1 {
      JoinEmptyHead(parts, sep);
      SplitJoin(parts[1..], sep);
      SplitCons(sep, Join(parts[1..], sep), sep);
      assert [[]] + parts[1..] == parts;
    }
  }

  /** `c.toUpperCase()` for ASCII letters; every other character is kept. */
  function AsciiUpper(c: char): (u: char)
    ensures 'a' <= c <= 'z' ==> 'A' <= u <= 'Z' && u as int == c as int - 32
    ensures !('a' <= c <= 'z') ==> u == c
  {
    if 'a' <= c <= 'z' then (c as int - 32) as char else c
  }

  /** `s.toUpperCase()`, character by character (see AsciiUpper). */
  function Upper(s: string): (u: string)
    ensures |u| == |s|
    ensures forall i :: 0 <= i < |s| ==> u[i] == AsciiUpper(s[i])
  {
    seq(|s|, i requires 0 <= i < |s| => AsciiUpper(s[i]))
  }
}

=== FILE: peer_link.dfy ===
/** One peer connection of the client, abstracted to the fields the session
    manager reads: signaling state, ICE connection state, whether a remote
    description is set, and the remote candidates added so far. Also the
    bookkeeping record the manager keeps beside it, and the two pure
    decisions made about links: reuse and candidate classification. */
module PeerLink {
  import opened Common
  import opened JsText

  /** `RTCPeerConnection.signalingState`, less 'closed' (a closed link is
      removed from the maps in the same step). */
  datatype Signaling = Stable | HaveLocalOffer | HaveRemoteOffer | HaveLocalPranswer | HaveRemotePranswer

  /** `RTCPeerConnection.iceConnectionState`. */
  datatype Ice = IceNew | Checking | Connected | Completed | Failed | Disconnected | IceClosed

  /** The `candidate` line of an ICE candidate; "" marks end-of-candidates. */
  type Candidate = string

  datatype Link = Link(signaling: Signaling, ice: Ice, hasRemote: bool, added: seq<Candidate>)

  /** The entry of `connectionStates`: a mirror of the link's two states
      plus its creation time in milliseconds. */
  datatype Record = Record(ice: Ice, signaling: Signaling, createdAt: int)

  /** A freshly constructed RTCPeerConnection. */
  const Fresh := Link(Stable, IceNew, false, [])

  /** public/js/SessionManager.js:470-475 — the record of a new link. */
  function NewRecord(now: int): (r: Record)
    ensures r.ice == Fresh.ice && r.signaling == Fresh.signaling && r.createdAt == now
  {
    Record(IceNew, Stable, now)
  }

  /** public/js/SessionManager.js:429-431 — a link is kept when its record
      shows ICE connected or completed, or signaling stable or
      have-local-offer. */
  predicate Reusable(r: Record) {
    r.ice == Connected || r.ice == Completed || r.signaling == Stable || r.signaling == HaveLocalOffer
  }

  /** A fresh link is always reusable, so a link that is replaced differs
      from its replacement. */
  lemma FreshIsReusable(now: int)
    ensures Reusable(NewRecord(now))
  {
  }

  /** The candidate types `getCandidateType` looks for, in the order it
      looks. */
  const Markers: seq<string> := ["host", "srflx", "relay", "prflx"]

  predicate Marked(line: string, k: int)
    requires 0 <= k < |Markers|
  {
    Includes(line, "typ " + Markers[k])
  }

  /** public/js/SessionManager.js:773-782 — the type named by the first
      marker `typ <type>` found in the candidate line, in the order host,
      srflx, relay, prflx; 'unknown' when there is none. */
  function CandidateType(line: string): (t: string)
    ensures t == "unknown" <==> forall k :: 0 <= k < |Markers| ==> !Marked(line, k)
    ensures t != "unknown" ==>
      exists k :: 0 <= k < |Markers| && t == Markers[k] && Marked(line, k)
        && forall j :: 0 <= j < k ==> !Marked(line, j)
  {
    assert "typ " + Markers[0] == "typ host" && "typ " + Markers[1] == "typ srflx";
    assert "typ " + Markers[2] == "typ relay" && "typ " + Markers[3] == "typ prflx";
    if line == [] then
      assert forall k :: 0 <= k < |Markers| ==> !Marked(line, k) by {
        forall k | 0 <= k < |Markers|
          ensures !Marked(line, k)
        {
          assert forall i :: !OccursAt(line, "typ " + Markers[k], i);
        }
      }
      "unknown"
    else if Includes(line, "typ host") then
      assert Marked(line, 0);
      "host"
    else if Includes(line, "typ srflx") then
      assert Marked(line, 1) && !Marked(line, 0);
      "srflx"
    else if Includes(line, "typ relay") then
      assert Marked(line, 2) && !Marked(line, 0) && !Marked(line, 1);
      "relay"
    else if Includes(line, "typ prflx") then
      assert Marked(line, 3) && !Marked(line, 0) && !Marked(line, 1) && !Marked(line, 2);
      "prflx"
    else
      assert !Marked(line, 0) && !Marked(line, 1) && !Marked(line, 2) && !Marked(line, 3);
      "unknown"
  }

  /** The queued candidates a browser accepts, in queue order. */
  function Accepted(q: seq<Candidate>, refused: set<Candidate>): (r: seq<Candidate>)
    ensures |r| <= |q|
    decreases |q|
  {
    if q == [] then [] else (if q[0] in refused then [] else [q[0]]) + Accepted(q[1..], refused)
  }

  /** Accepting distributes over concatenation, so order is kept. */
  lemma {:induction false} AcceptedAppend(a: seq<Candidate>, b: seq<Candidate>, refused: set<Candidate>)
    ensures Accepted(a + b, refused) == Accepted(a, refused) + Accepted(b, refused)
    decreases |a|
  {
    if a == [] {
      assert a + b == b;
    } else {
      assert (a + b)[0] == a[0];
      assert (a + b)[1..] == a[1..] + b;
      AcceptedAppend(a[1..], b, refused);
    }
  }

  /** A candidate ends up added iff it was queued and not refused: a failed
      add drops only that candidate. */
  lemma {:induction false} AcceptedMembers(q: seq<Candidate>, refused: set<Candidate>, c: Candidate)
    ensures c in Accepted(q, refused) <==> c in q && c !in refused
    decreases |q|
  {
    if q != [] {
      AcceptedMembers(q[1..], refused, c);
      assert q == [q[0]] + q[1..];
    }
  }

  /** The outcome of draining a peer's queue into its link: the link, what
      stays queued, and whether a retry was scheduled. */
  datatype Drain = Drain(link: Link, rest: seq<Candidate>, retry: bool)

  /** The drain in closed form: without a remote description nothing moves
      and a retry is due; otherwise every candidate is offered to the link in
      queue order, the accepted ones are added and the queue is emptied. */
  function Drained(link: Link, queue: seq<Candidate>, refused: set<Candidate>): Drain {
    if queue == [] then Drain(link, [], false)
    else if !link.hasRemote then Drain(link, queue, true)
    else Drain(link.(added := link.added + Accepted(queue, refused)), [], false)
  }

  /** public/js/SessionManager.js:829-856 — `processNext`: take the head;
      with no remote description put it back at the head and stop for a
      retry; otherwise add it (a refused add drops it) and go on. */
  method DrainQueue(link: Link, queue: seq<Candidate>, refused: set<Candidate>) returns (d: Drain)
    ensures d == Drained(link, queue, refused)
    ensures d.link == link.(added := d.link.added)
    ensures !d.retry ==> d.rest == [] && d.link.added == link.added + Accepted(queue, refused)
    ensures d.retry ==> d.rest == queue && d.link == link
  {
    var l := link;
    var q := queue;
    var retry := false;
    while |q| > 0
      invariant |q| <= |queue| && q == queue[|queue| - |q|..]
      invariant l == link.(added := link.added + Accepted(queue[..|queue| - |q|], refused))
      invariant !link.hasRemote ==> q == queue
      decreases |q|
    {
      var taken := queue[..|queue| - |q|];
      var c := q[0];
      q := q[1..];
      if !l.hasRemote {
        q := [c] + q;
        assert q == queue && taken == [];
        retry := true;
        break;
      }
      assert queue[..|queue| - |q|] == taken + [c];
      AcceptedAppend(taken, [c], refused);
      if c !in refused {
        l := l.(added := l.added + [c]);
      }
    }
    if !retry {
      assert queue[..|queue|] == queue;
    }
    d := Drain(l, q, retry);
  }
}

=== FILE: server.dfy ===
/** The signaling server's connection registry, host election, join gate and
    relay (server.js; server2.js runs the same handlers behind HTTPS).

    The server is one event loop: each connect, message or close handler runs
    to completion before the next starts, so it is modelled as a pure step
    from a state and one event to the next state and the messages sent. */
module SignalingServer {
  import opened Common
  import opened Wire

  /** The in-memory registry.
      - `clients`: every connected socket, with whether its readyState is OPEN;
      - `order`/`names`: the insertion-ordered `clientInfo` map (id -> name);
      - `hostId`: the current host, if any;
      - `pending`: ids waiting for the host's decision. */
  datatype State = State(
    clients: map<Id, bool>,
    order: seq<Id>,
    names: map<Id, string>,
    hostId: Option<Id>,
    pending: set<Id>)

  /** The state at start-up: nobody connected, no host. */
  const Initial := State(map[], [], map[], None, {})

  datatype Event =
    | Connect(id: Id)                  // a socket connected and was given the fresh id
    | Message(sender: Id, msg: ClientMsg)
    | Unparsable(sender: Id)           // JSON.parse failed
    | NullBody(sender: Id)             // the body parsed to `null`
    | Drop(id: Id)                     // the socket left OPEN (closing handshake began)
    | Close(id: Id)                    // the socket's 'close' event

  /** One `send` call on the socket of `to`. */
  datatype Outbound = Outbound(to: Id, msg: ServerMsg)

  /** The outcome of one handler: the new state, the sends it made in order,
      and whether it stopped on a thrown TypeError. */
  datatype Reaction = Reaction(next: State, sent: seq<Outbound>, threw: bool)

  const NoHostReason := "No host is available."
  const RejectedReason := "Host rejected the request."

  /** The registry invariant the handlers maintain. */
  ghost predicate Valid(s: State) {
    && Distinct(s.order)
    && (forall id :: id in s.order <==> id in s.names)
    && s.names.Keys <= s.clients.Keys
    && s.pending <= s.names.Keys
    && (s.hostId.Some? ==> s.hostId.value in s.names)
  }

  /** The receivers of a list of sends, in order. */
  function Recipients(out: seq<Outbound>): (ids: seq<Id>)
    ensures |ids| == |out|
    ensures forall i :: 0 <= i < |out| ==> ids[i] == out[i].to
  {
    seq(|out|, i requires 0 <= i < |out| => out[i].to)
  }

  /** Nothing changes and nothing is sent. */
  function Quiet(s: State): Reaction {
    Reaction(s, [], false)
  }

  predicate IsOpen(s: State, id: Id) {
    id in s.clients && s.clients[id]
  }

  predicate IsHost(s: State, id: Id) {
    s.hostId == Some(id)
  }

  /** `clientInfo.get(id)?.name || 'User-' + id.substring(0, 4)`. */
  function SenderName(s: State, id: Id): (name: string)
    ensures id in s.names && s.names[id] != "" ==> name == s.names[id]
    ensures id !in s.names || s.names[id] == "" ==> name == "User-" + Prefix(id, 4)
  {
    if id in s.names && s.names[id] != "" then s.names[id] else "User-" + Prefix(id, 4)
  }

  /** `clientInfo.set(id, {name})`: a new key goes last, an existing key keeps its place. */
  function SetName(s: State, id: Id, name: string): (r: State)
    requires Valid(s) && id in s.clients
    ensures Valid(r)
    ensures r.names == s.names[id := name]
    ensures id in s.names ==> r.order == s.order
    ensures id !in s.names ==> r.order == s.order + [id]
    ensures r.clients == s.clients && r.hostId == s.hostId && r.pending == s.pending
  {
    if id in s.names then s.(names := s.names[id := name])
    else s.(order := s.order + [id], names := s.names[id := name])
  }

  /** `xs` with every occurrence of `x` removed, order kept. */
  function Without(xs: seq<Id>, x: Id): (r: seq<Id>)
    ensures forall y :: y in r <==> y in xs && y != x
    ensures Distinct(xs) ==> Distinct(r)
    ensures x !in xs ==> r == xs
    ensures |xs| > 0 && xs[0] != x ==> |r| > 0 && r[0] == xs[0]
    ensures |xs| > 0 && xs[0] == x && Distinct(xs) ==> r == xs[1..]
  {
    if xs == [] then []
    else if xs[0] == x then Without(xs[1..], x)
    else
      var rest := Without(xs[1..], x);
      assert Distinct(xs) ==> xs[0] !in xs[1..];
      [xs[0]] + rest
  }

  /** One send of `m` to every id of `ids` whose socket is OPEN, except
      `except`, in the order of `ids` (the `clientInfo.forEach` broadcasts). */
  function Notify(s: State, ids: seq<Id>, except: Option<Id>, m: ServerMsg): (out: seq<Outbound>)
    ensures forall i :: 0 <= i < |out| ==> out[i].msg == m
    ensures forall id :: id in Recipients(out) <==> id in ids && IsOpen(s, id) && except != Some(id)
    ensures Distinct(ids) ==> Distinct(Recipients(out))
  {
    if ids == [] then []
    else
      var rest := Notify(s, ids[1..], except, m);
      assert forall id :: id in ids <==> id == ids[0] || id in ids[1..];
      if IsOpen(s, ids[0]) && except != Some(ids[0]) then
        var out := [Outbound(ids[0], m)] + rest;
        assert Recipients(out) == [ids[0]] + Recipients(rest);
        assert Distinct(ids) ==> ids[0] !in ids[1..];
        out
      else rest
  }

  /** `ids` kept in order where `keep` says so (a reference filter). */
  ghost function Kept(ids: seq<Id>, keep: Id -> bool): seq<Id> {
    if ids == [] then [] else (if keep(ids[0]) then [ids[0]] else []) + Kept(ids[1..], keep)
  }

  /** The roster a newly approved guest receives: every `clientInfo` id other
      than the guest that is still in `clients`, with its name. */
  function Roster(s: State, ids: seq<Id>, guest: Id): (peers: seq<PeerEntry>)
    requires forall id :: id in ids ==> id in s.names
    ensures forall i :: 0 <= i < |peers| ==> peers[i].id in s.names && peers[i].name == s.names[peers[i].id]
    ensures PeerIds(peers) == Kept(ids, id => id != guest && id in s.clients)
  {
    if ids == [] then []
    else
      var rest := Roster(s, ids[1..], guest);
      if ids[0] != guest && ids[0] in s.clients then
        var r := [PeerEntry(ids[0], s.names[ids[0]])] + rest;
        assert PeerIds(r) == [ids[0]] + PeerIds(rest);
        r
      else rest
  }

  /** The ids of a roster, in order. */
  function PeerIds(peers: seq<PeerEntry>): (ids: seq<Id>)
    ensures |ids| == |peers|
    ensures forall i :: 0 <= i < |peers| ==> ids[i] == peers[i].id
  {
    seq(|peers|, i requires 0 <= i < |peers| => peers[i].id)
  }

  /** Membership in a filtered sequence: exactly the kept elements of `ids`. */
  lemma {:induction false} KeptMembers(ids: seq<Id>, keep: Id -> bool)
    ensures forall id :: id in Kept(ids, keep) <==> id in ids && keep(id)
    ensures Distinct(ids) ==> Distinct(Kept(ids, keep))
  {
    if ids != [] {
      KeptMembers(ids[1..], keep);
      assert forall id :: id in ids <==> id == ids[0] || id in ids[1..];
      assert Distinct(ids) ==> ids[0] !in ids[1..];
    }
  }

  /** server.js:196-228 — the socket of `c` closed. */
  function OnClose(s: State, c: Id): (r: Reaction)
    requires Valid(s) && c in s.clients
    ensures Valid(r.next) && !r.threw
    ensures r.next.clients == s.clients - {c}
    ensures r.next.pending == s.pending - {c}
    ensures r.next.names == s.names - {c}
    ensures r.next.order == Without(s.order, c)
    ensures !IsHost(s, c) ==> r.next.hostId == s.hostId
    ensures IsHost(s, c) ==> r.next.hostId == (if r.next.order == [] then None else Some(r.next.order[0]))
    ensures c !in s.names ==> r.sent == []
    ensures c in s.names ==>
      r.sent == (if IsHost(s, c) && r.next.hostId.Some? then [Outbound(r.next.hostId.value, SetHost)] else [])
                + Notify(r.next, r.next.order, None, PeerDisconnected(c, SenderName(s, c)))
  {
    var name := SenderName(s, c);
    var s1 := s.(clients := s.clients - {c}, pending := s.pending - {c});
    if c !in s.names then Reaction(s1, [], false)
    else
      var rest := Without(s.order, c);
      var s2 := s1.(order := rest, names := s.names - {c});
      var bye := PeerDisconnected(c, name);
      if IsHost(s, c) then
        var s3 := s2.(hostId := if |rest| > 0 then Some(rest[0]) else None);
        var promote := if s3.hostId.Some? && s3.hostId.value in s3.clients then [Outbound(s3.hostId.value, SetHost)] else [];
        Reaction(s3, promote + Notify(s3, rest, None, bye), false)
      else Reaction(s2, Notify(s2, rest, None, bye), false)
  }

  /** server.js:62-71 — 'start-call'. */
  function OnStartCall(s: State, c: Id, name: string): (r: Reaction)
    requires Valid(s) && c in s.clients
    ensures Valid(r.next) && !r.threw
    ensures s.hostId.Some? ==> r == Quiet(s)
    ensures s.hostId.None? ==>
      && r.next.hostId == Some(c)
      && r.next.names == s.names[c := name]
      && r.next.clients == s.clients && r.next.pending == s.pending
      && r.sent == [Outbound(c, SetHost)]
  {
    if s.hostId.Some? then Quiet(s)
    else Reaction(SetName(s, c, name).(hostId := Some(c)), [Outbound(c, SetHost)], false)
  }

  /** server.js:74-96 — 'request-to-join'. */
  function OnRequestToJoin(s: State, c: Id, name: string): (r: Reaction)
    requires Valid(s) && c in s.clients
    ensures Valid(r.next) && !r.threw
    ensures r.next.names == s.names[c := name]
    ensures r.next.clients == s.clients && r.next.hostId == s.hostId
    ensures s.hostId.None? || !IsOpen(s, s.hostId.value) ==>
      r.next.pending == s.pending && r.sent == [Outbound(c, JoinRejected(NoHostReason))]
    ensures s.hostId.Some? && IsOpen(s, s.hostId.value) && c in s.pending ==>
      r.next.pending == s.pending && r.sent == []
    ensures s.hostId.Some? && IsOpen(s, s.hostId.value) && c !in s.pending ==>
      r.next.pending == s.pending + {c} && r.sent == [Outbound(s.hostId.value, JoinRequest(c, name))]
  {
    var s1 := SetName(s, c, name);
    if s.hostId.None? || !IsOpen(s, s.hostId.value) then Reaction(s1, [Outbound(c, JoinRejected(NoHostReason))], false)
    else if c in s.pending then Reaction(s1, [], false)
    else Reaction(s1.(pending := s.pending + {c}), [Outbound(s.hostId.value, JoinRequest(c, name))], false)
  }

  /** server.js:99-121 — 'approve-join'. Line 113 reads the guest's name
      without a guard, so a guest missing from `clientInfo` makes the handler
      throw after `join-approved` has gone out. */
  function OnApproveJoin(s: State, c: Id, g: Id): (r: Reaction)
    requires Valid(s)
    ensures Valid(r.next)
    ensures !IsHost(s, c) ==> r == Quiet(s)
    ensures IsHost(s, c) ==> r.next == s.(pending := s.pending - {g})
    ensures IsHost(s, c) && !IsOpen(s, g) ==> r.sent == [] && !r.threw
    ensures IsHost(s, c) && IsOpen(s, g) ==>
      && |r.sent| >= 1
      && r.sent[0] == Outbound(g, JoinApproved(Roster(s, s.order, g)))
      && r.threw == (g !in s.names)
      && (g in s.names ==> r.sent[1..] == Notify(s, s.order, Some(g), PeerJoined(g, s.names[g])))
  {
    if !IsHost(s, c) then Quiet(s)
    else
      var s1 := s.(pending := s.pending - {g});
      if !IsOpen(s, g) then Reaction(s1, [], false)
      else
        var approved := Outbound(g, JoinApproved(Roster(s, s.order, g)));
        if g !in s.names then Reaction(s1, [approved], true)
        else Reaction(s1, [approved] + Notify(s, s.order, Some(g), PeerJoined(g, s.names[g])), false)
  }

  /** server.js:124-132 — 'reject-join'. */
  function OnRejectJoin(s: State, c: Id, g: Id): (r: Reaction)
    requires Valid(s)
    ensures Valid(r.next) && !r.threw
    ensures !IsHost(s, c) ==> r == Quiet(s)
    ensures IsHost(s, c) ==> r.next == s.(pending := s.pending - {g})
    ensures IsHost(s, c) ==> r.sent == if IsOpen(s, g) then [Outbound(g, JoinRejected(RejectedReason))] else []
  {
    if !IsHost(s, c) then Quiet(s)
    else
      var s1 := s.(pending := s.pending - {g});
      Reaction(s1, if IsOpen(s1, g) then [Outbound(g, JoinRejected(RejectedReason))] else [], false)
  }

  /** server.js:135-143 — 'kick-user': the target is told, then its socket starts closing. */
  function OnKick(s: State, c: Id, k: Id): (r: Reaction)
    requires Valid(s)
    ensures Valid(r.next) && !r.threw
    ensures !IsHost(s, c) || !IsOpen(s, k) ==> r == Quiet(s)
    ensures IsHost(s, c) && IsOpen(s, k) ==>
      r.next == s.(clients := s.clients[k := false]) && r.sent == [Outbound(k, YouWereKicked)]
  {
    if IsHost(s, c) && IsOpen(s, k) then
      Reaction(s.(clients := s.clients[k := false]), [Outbound(k, YouWereKicked)], false)
    else Quiet(s)
  }

  /** server.js:146-165 — 'remote-mute'. */
  function OnRemoteMute(s: State, c: Id, m: Id): (r: Reaction)
    requires Valid(s)
    ensures r.next == s && !r.threw
    ensures !IsHost(s, c) || !IsOpen(s, m) ==> r.sent == []
    ensures IsHost(s, c) && IsOpen(s, m) ==>
      && |r.sent| >= 1
      && r.sent[0] == Outbound(m, YouWereMuted)
      && r.sent[1..] == Notify(s, s.order, None, PeerMuted(m, Lookup(s.names, m)))
  {
    if IsHost(s, c) && IsOpen(s, m) then
      Reaction(s, [Outbound(m, YouWereMuted)] + Notify(s, s.order, None, PeerMuted(m, Lookup(s.names, m))), false)
    else Quiet(s)
  }

  /** `{ ...data, from: clientId, fromName: clientInfo.get(clientId)?.name }`
      as JSON: the server's `from` replaces any client-supplied one, and an
      undefined `fromName` drops the key altogether. */
  function Stamp(body: Fields, from: Id, name: Option<string>): (fields: Fields)
    ensures "from" in fields && fields["from"] == from
    ensures "fromName" in fields <==> name.Some?
    ensures name.Some? ==> fields["fromName"] == name.value
    ensures forall k :: k != "from" && k != "fromName" ==> (k in fields <==> k in body)
    ensures forall k :: k in body && k != "from" && k != "fromName" ==> fields[k] == body[k]
  {
    match name
    case Some(n) => body["from" := from]["fromName" := n]
    case None => (body - {"fromName"})["from" := from]
  }

  /** server.js:168-176 — 'offer', 'answer' and 'ice-candidate' go to `data.to` only. */
  function OnSignal(s: State, c: Id, kind: SignalKind, body: Fields): (r: Reaction)
    requires Valid(s)
    ensures r.next == s && !r.threw && |r.sent| <= 1
    ensures |r.sent| == 1 <==> "to" in body && IsOpen(s, body["to"])
    ensures |r.sent| == 1 ==>
      r.sent[0] == Outbound(body["to"], Relayed(kind, Stamp(body, c, Lookup(s.names, c))))
  {
    var to := Lookup(body, "to");
    if to.Some? && IsOpen(s, to.value) then
      Reaction(s, [Outbound(to.value, Relayed(kind, Stamp(body, c, Lookup(s.names, c))))], false)
    else Quiet(s)
  }

  /** server.js:179-191 — 'chat-message' goes to every open `clientInfo` member, sender included. */
  function OnChat(s: State, c: Id, message: string): (r: Reaction)
    requires Valid(s)
    ensures r.next == s && !r.threw
    ensures r.sent == Notify(s, s.order, None, Chat(c, SenderName(s, c), message))
  {
    Reaction(s, Notify(s, s.order, None, Chat(c, SenderName(s, c), message)), false)
  }

  /** server.js:60-192 — the message switch; tags without a case fall through. */
  function OnMessage(s: State, c: Id, m: ClientMsg): (r: Reaction)
    requires Valid(s) && c in s.clients
    ensures Valid(r.next)
  {
    match m
    case StartCall(name) => OnStartCall(s, c, name)
    case RequestToJoin(name, _) => OnRequestToJoin(s, c, name)
    case ApproveJoin(g) => OnApproveJoin(s, c, g)
    case RejectJoin(g) => OnRejectJoin(s, c, g)
    case KickUser(k) => OnKick(s, c, k)
    case RemoteMute(t) => OnRemoteMute(s, c, t)
    case Signal(kind, body) => OnSignal(s, c, kind, body)
    case ChatMessage(text) => OnChat(s, c, text)
    case _ => Quiet(s)
  }

  /** server.js:38-45 — a new socket is registered under a fresh id and told its id. */
  function OnConnect(s: State, id: Id): (r: Reaction)
    requires Valid(s)
    ensures Valid(r.next) && !r.threw
    ensures id in s.clients ==> r == Quiet(s)
    ensures id !in s.clients ==>
      r.next == s.(clients := s.clients[id := true]) && r.sent == [Outbound(id, AssignId(id))]
  {
    if id in s.clients then Quiet(s)
    else Reaction(s.(clients := s.clients[id := true]), [Outbound(id, AssignId(id))], false)
  }

  /** The uncaught TypeErrors the model covers. A body that parses to
      `null` passes the guarded `JSON.parse`, and reading `data.type`
      (server.js:58) reads a field of null. A host approving an open
      client that never sent its name makes `clientInfo.get(guestId).name`
      read a field of undefined (server.js:113). */
  predicate Throws(s: State, e: Event) {
    || (e.NullBody? && e.sender in s.clients)
    || (&& e.Message? && e.sender in s.clients && e.msg.ApproveJoin?
        && IsHost(s, e.sender) && IsOpen(s, e.msg.guestId) && e.msg.guestId !in s.names)
  }

  /** One event handled to completion. A uuid is never reused, and a socket's
      handlers only run while its id is registered, so the other cases are no-ops. */
  function Step(s: State, e: Event): (r: Reaction)
    requires Valid(s)
    ensures Valid(r.next)
    ensures r.threw <==> Throws(s, e)
  {
    match e
    case Connect(id) => OnConnect(s, id)
    case Message(c, m) => if c in s.clients then OnMessage(s, c, m) else Quiet(s)
    case Unparsable(_) => Quiet(s)
    case NullBody(c) => if c in s.clients then Reaction(s, [], true) else Quiet(s)
    case Drop(id) => if id in s.clients then Reaction(s.(clients := s.clients[id := false]), [], false) else Quiet(s)
    case Close(id) => if id in s.clients then OnClose(s, id) else Quiet(s)
  }

  /** The server process: running with its registry, or gone. Only the
      `JSON.parse` call is guarded (server.js:50-55), so an exception thrown
      by a handler is uncaught and ends the process. */
  datatype Server = Up(registry: State) | Crashed

  /** The server after a sequence of events: it stops at the first event
      whose handler throws, and no later event is handled. */
  function Run(s: State, events: seq<Event>): (r: Server)
    requires Valid(s)
    ensures r.Up? ==> Valid(r.registry)
    decreases |events|
  {
    if events == [] then Up(s)
    else
      var r := Step(s, events[0]);
      if r.threw then Crashed else Run(r.next, events[1..])
  }
}

=== FILE: server_props.dfy ===
/** Properties of the signaling server that relate several handlers or
    several events. */
module ServerProperties {
  import opened Common
  import opened Wire
  import opened SignalingServer

  predicate Moderation(m: ClientMsg) {
    m.ApproveJoin? || m.RejectJoin? || m.KickUser? || m.RemoteMute?
  }

  /** Tags the client sends but the server's switch has no case for. */
  predicate Unhandled(m: ClientMsg) {
    || m.ToggleRemoteMute? || m.PrivateMessage? || m.HandState? || m.CreatePoll?
    || m.SubmitVote? || m.EndPoll? || m.LeaveCall? || m.Unknown?
  }

  /** Only the host may approve, reject, kick or mute: from anyone else the
      message changes nothing and sends nothing. */
  lemma OnlyHostModerates(s: State, c: Id, m: ClientMsg)
    requires Valid(s) && Moderation(m) && !IsHost(s, c)
    ensures Step(s, Message(c, m)) == Quiet(s)
  {
  }

  /** Message types without a case in the switch are ignored. */
  lemma UnhandledIgnored(s: State, c: Id, m: ClientMsg)
    requires Valid(s) && Unhandled(m)
    ensures Step(s, Message(c, m)) == Quiet(s)
  {
  }

  /** A second `request-to-join` from a guest already waiting forwards
      nothing to the host and leaves the pending set alone. */
  lemma RepeatedJoinRequestForwardsNothing(s: State, c: Id, first: string, second: string, callId: Option<string>)
    requires Valid(s) && c in s.clients
    requires s.hostId.Some? && IsOpen(s, s.hostId.value)
    ensures var r1 := Step(s, Message(c, RequestToJoin(first, callId)));
            var r2 := Step(r1.next, Message(c, RequestToJoin(second, callId)));
            && r1.sent == (if c in s.pending then [] else [Outbound(s.hostId.value, JoinRequest(c, first))])
            && c in r1.next.pending
            && r2.sent == []
            && r2.next.pending == r1.next.pending
            && r2.next.names[c] == second
  {
  }

  /** The host's `start-call` is taken once: after one caller has become
      host, a `start-call` from anyone changes nothing. */
  lemma StartCallElectsOnce(s: State, a: Id, b: Id, nameA: string, nameB: string)
    requires Valid(s) && a in s.clients && s.hostId.None?
    ensures var r1 := Step(s, Message(a, StartCall(nameA)));
            && r1.next.hostId == Some(a)
            && r1.sent == [Outbound(a, SetHost)]
            && Step(r1.next, Message(b, StartCall(nameB))) == Quiet(r1.next)
  {
  }

  /** The earliest `clientInfo` entry other than `c`, if any. */
  function Successor(order: seq<Id>, c: Id): Option<Id> {
    if |order| > 0 && order[0] != c then Some(order[0])
    else if |order| > 1 then Some(order[1])
    else None
  }

  /** When the host's socket closes, the earliest remaining `clientInfo`
      entry becomes host and is told `set-host` before anything else. */
  lemma HostMigration(s: State, c: Id)
    requires Valid(s) && c in s.clients && IsHost(s, c)
    ensures var r := Step(s, Close(c));
            && r.next.hostId == Successor(s.order, c)
            && (r.next.hostId.Some? ==> |r.sent| >= 1 && r.sent[0] == Outbound(r.next.hostId.value, SetHost))
  {
    assert c in s.order;
    var rest := Without(s.order, c);
    if s.order[0] == c {
      assert rest == s.order[1..];
    }
  }

  /** A registered socket's 'close' runs the close handler. */
  lemma CloseStep(s: State, c: Id)
    requires Valid(s) && c in s.clients
    ensures Step(s, Close(c)) == OnClose(s, c)
  {
  }

  /** After the host's `set-host`, the close handler sends one
      `peer-disconnected` to each remaining open `clientInfo` member and
      nothing else; a guest's close does the same without the `set-host`. */
  lemma DepartureNotice(s: State, c: Id)
    requires Valid(s) && c in s.clients && c in s.names
    ensures var r := Step(s, Close(c));
            var bye := if IsHost(s, c) && r.next.hostId.Some? then r.sent[1..] else r.sent;
            && (forall i :: 0 <= i < |bye| ==> bye[i].msg == PeerDisconnected(c, SenderName(s, c)))
            && (forall id :: id in Recipients(bye) <==> id in s.names && id != c && IsOpen(s, id))
            && Distinct(Recipients(bye))
  {
    var r := OnClose(s, c);
    CloseStep(s, c);
    var s2 := r.next;
    var out := Notify(s2, s2.order, None, PeerDisconnected(c, SenderName(s, c)));
    if IsHost(s, c) && s2.hostId.Some? {
      assert r.sent == [Outbound(s2.hostId.value, SetHost)] + out;
      assert r.sent[1..] == out;
    } else {
      assert r.sent == [] + out;
    }
    forall id
      ensures id in Recipients(out) <==> id in s.names && id != c && IsOpen(s, id)
    {
      assert id in s2.order <==> id in s.order && id != c;
      assert IsOpen(s2, id) <==> id != c && IsOpen(s, id);
    }
  }

  /** A broadcast with no exclusion reaches exactly the open ids of the list. */
  lemma BroadcastReach(s: State, ids: seq<Id>, m: ServerMsg)
    ensures forall id :: id in Recipients(Notify(s, ids, None, m)) <==> id in ids && IsOpen(s, id)
  {
  }

  /** Closing a non-host socket keeps the host. */
  lemma GuestCloseKeepsHost(s: State, c: Id)
    requires Valid(s) && c in s.clients && !IsHost(s, c)
    ensures Step(s, Close(c)).next.hostId == s.hostId
  {
  }

  /** A relayed negotiation message always names its real sender: the
      client cannot choose the `from` the recipient sees. */
  lemma RelayStampsSender(s: State, c: Id, kind: SignalKind, body: Fields)
    requires Valid(s) && c in s.clients
    ensures var r := Step(s, Message(c, Signal(kind, body)));
            && r.next == s
            && (forall i :: 0 <= i < |r.sent| ==>
                  && r.sent[i].msg.Relayed?
                  && r.sent[i].msg.fields["from"] == c
                  && r.sent[i].to == body["to"])
            && (|r.sent| == 0 <==> "to" !in body || !IsOpen(s, body["to"]))
  {
  }

  /** server2.js:144-163 — a mute by the host reaches the target privately
      and then every open `clientInfo` member, host and target included, once. */
  lemma RemoteMuteReachesEveryone(s: State, c: Id, t: Id)
    requires Valid(s) && c in s.clients && IsHost(s, c) && IsOpen(s, t)
    ensures var r := Step(s, Message(c, RemoteMute(t)));
            && r.next == s
            && |r.sent| >= 1 && r.sent[0] == Outbound(t, YouWereMuted)
            && (forall i :: 1 <= i < |r.sent| ==> r.sent[i].msg == PeerMuted(t, Lookup(s.names, t)))
            && (forall id :: id in Recipients(r.sent[1..]) <==> id in s.names && IsOpen(s, id))
            && Distinct(Recipients(r.sent[1..]))
  {
  }

  /** server2.js:175-187 — chat goes once to each open `clientInfo` member,
      the sender included when it is one, stamped with the sender's id. */
  lemma ChatReachesEveryone(s: State, c: Id, text: string)
    requires Valid(s) && c in s.clients
    ensures var r := Step(s, Message(c, ChatMessage(text)));
            && r.next == s
            && (forall i :: 0 <= i < |r.sent| ==> r.sent[i].msg.Chat? && r.sent[i].msg.fromId == c)
            && (forall id :: id in Recipients(r.sent) <==> id in s.names && IsOpen(s, id))
            && Distinct(Recipients(r.sent))
  {
  }

  /** A rejected guest keeps its `clientInfo` entry (the name is recorded
      before the host check), so it still receives every chat broadcast. */
  lemma RejectedGuestStaysListed(s: State, host: Id, g: Id, name: string, text: string, sender: Id)
    requires Valid(s) && g in s.clients && host in s.clients && IsHost(s, host) && IsOpen(s, g)
    requires sender in s.clients
    ensures var r1 := Step(s, Message(g, RequestToJoin(name, None)));
            var r2 := Step(r1.next, Message(host, RejectJoin(g)));
            var r3 := Step(r2.next, Message(sender, ChatMessage(text)));
            && g !in r2.next.pending
            && g in r2.next.names && r2.next.names[g] == name
            && g in Recipients(r3.sent)
  {
    var r1 := Step(s, Message(g, RequestToJoin(name, None)));
    var r2 := Step(r1.next, Message(host, RejectJoin(g)));
    assert IsOpen(r2.next, g);
  }

  /** Running from a first event: the server stops if that event's handler
      throws and otherwise carries on from the state it leaves. */
  lemma RunCons(s: State, e: Event, rest: seq<Event>)
    requires Valid(s)
    ensures Run(s, [e] + rest) ==
      if Step(s, e).threw then Crashed else Run(Step(s, e).next, rest)
  {
    assert ([e] + rest)[0] == e && ([e] + rest)[1..] == rest;
  }

  /** Running a + b is running a and then, if the server is still up, b;
      once crashed it stays crashed. */
  lemma {:induction false} RunAppend(s: State, a: seq<Event>, b: seq<Event>)
    requires Valid(s)
    ensures Run(s, a).Crashed? ==> Run(s, a + b) == Crashed
    ensures Run(s, a).Up? ==> Run(s, a + b) == Run(Run(s, a).registry, b)
    decreases |a|
  {
    if a == [] {
      assert a + b == b;
    } else {
      var e := a[0];
      assert a == [e] + a[1..];
      assert a + b == [e] + (a[1..] + b);
      RunCons(s, e, a[1..]);
      RunCons(s, e, a[1..] + b);
      if !Step(s, e).threw {
        RunAppend(Step(s, e).next, a[1..], b);
      }
    }
  }

  /** The first k events leave the server up and the next one throws. */
  predicate CrashesAt(s: State, events: seq<Event>, k: int)
    requires Valid(s)
  {
    && 0 <= k < |events|
    && Run(s, events[..k]).Up? && Throws(Run(s, events[..k]).registry, events[k])
  }

  /** A handler that throws while the server is up ends the run: whatever
      follows is never handled. */
  lemma ThrowEndsRun(s: State, events: seq<Event>, k: int)
    requires Valid(s) && CrashesAt(s, events, k)
    ensures Run(s, events) == Crashed
  {
    var rest := events[k + 1..];
    assert events == events[..k] + ([events[k]] + rest);
    RunAppend(s, events[..k], [events[k]] + rest);
    RunCons(Run(s, events[..k]).registry, events[k], rest);
  }

  /** A crash has a cause: some event met a throwing handler while the
      server was still up. */
  lemma {:induction false} CrashHasCause(s: State, events: seq<Event>)
    requires Valid(s) && Run(s, events).Crashed?
    ensures exists k :: CrashesAt(s, events, k)
    decreases |events|
  {
    if events == [] {
      assert false;
    } else {
      var n := |events| - 1;
      var init := events[..n];
      assert events == init + [events[n]];
      RunAppend(s, init, [events[n]]);
      if Run(s, init).Crashed? {
        CrashHasCause(s, init);
        var k :| CrashesAt(s, init, k);
        assert events[..k] == init[..k];
        assert CrashesAt(s, events, k);
      } else {
        var t := Run(s, init).registry;
        RunCons(t, events[n], []);
        assert [events[n]] + [] == [events[n]];
        assert events[..n] == init;
        assert CrashesAt(s, events, n);
      }
    }
  }

  /** The server crashes exactly when some event reaches a handler that
      throws while the server is still up. */
  lemma CrashesIffSomeHandlerThrows(s: State, events: seq<Event>)
    requires Valid(s)
    ensures Run(s, events).Crashed? <==> exists k :: CrashesAt(s, events, k)
  {
    if Run(s, events).Crashed? {
      CrashHasCause(s, events);
    }
    forall k | CrashesAt(s, events, k)
      ensures Run(s, events).Crashed?
    {
      ThrowEndsRun(s, events, k);
    }
  }

  /** The registry once A and B have connected and A has started a call as
      Alice. */
  const AliceCalling := State(map["A" := true, "B" := true], ["A"], map["A" := "Alice"], Some("A"), {})

  /** Two connections and a `start-call` from the first leave Alice hosting
      a call on her own, with B connected but not in it. */
  lemma AliceStartsCall()
    ensures Run(Initial, [Connect("A"), Connect("B"), Message("A", StartCall("Alice"))]) == Up(AliceCalling)
  {
    var e1, e2, e3 := Connect("A"), Connect("B"), Message("A", StartCall("Alice"));
    var s1 := Step(Initial, e1).next;
    var s2 := Step(s1, e2).next;
    var s3 := Step(s2, e3).next;
    assert s3 == AliceCalling;
    RunCons(s2, e3, []);
    assert [e3] + [] == [e3];
    RunCons(s1, e2, [e3]);
    RunCons(Initial, e1, [e2, e3]);
    assert [e1] + [e2, e3] == [e1, e2, e3];
    assert [e2] + [e3] == [e2, e3];
  }

  /** The approval handler reads the guest's name without a guard
      (server.js:113): approving an open client that never sent its name
      sends `join-approved` and then throws, which ends the server: the
      events after it are never handled. */
  lemma ApprovingUnnamedClientThrows()
    ensures var start := [Connect("A"), Connect("B"), Message("A", StartCall("Alice"))];
            && Run(Initial, start).Up?
            && var r := Step(Run(Initial, start).registry, Message("A", ApproveJoin("B")));
            && r.threw
            && r.sent == [Outbound("B", JoinApproved([PeerEntry("A", "Alice")]))]
            && Run(Initial, start + [Message("A", ApproveJoin("B")), Message("B", ChatMessage("hi"))]) == Crashed
  {
    var start := [Connect("A"), Connect("B"), Message("A", StartCall("Alice"))];
    AliceStartsCall();
    var s := AliceCalling;
    assert Roster(s, ["A"], "B") == [PeerEntry("A", "Alice")];
    var approve := Message("A", ApproveJoin("B"));
    assert Throws(s, approve);
    RunAppend(Initial, start, [approve, Message("B", ChatMessage("hi"))]);
    RunCons(s, approve, [Message("B", ChatMessage("hi"))]);
    assert [approve] + [Message("B", ChatMessage("hi"))] == [approve, Message("B", ChatMessage("hi"))];
  }

  /** A connected client whose message body is `null` ends the server:
      `data.type` (server.js:58) reads a field of null outside the
      guarded parse, so none of the events after it is handled. */
  lemma NullBodyCrashes(s: State, c: Id, rest: seq<Event>)
    requires Valid(s) && c in s.clients
    ensures Step(s, NullBody(c)).threw && Step(s, NullBody(c)).sent == []
    ensures Run(s, [NullBody(c)] + rest) == Crashed
  {
  }

  /** The registry once Bob has asked to join Alice's call. */
  const BobWaiting := State(map["A" := true, "B" := true], ["A", "B"], map["A" := "Alice", "B" := "Bob"], Some("A"), {"B"})

  /** Bob's `request-to-join` names him, queues him for Alice's decision
      and is forwarded to her. */
  lemma BobAsksToJoin()
    ensures Step(AliceCalling, Message("B", RequestToJoin("Bob", None)))
            == Reaction(BobWaiting, [Outbound("A", JoinRequest("B", "Bob"))], false)
  {
  }

  /** Alice's approval sends Bob the roster [Alice] and tells Alice that Bob
      joined. */
  lemma AliceApprovesBob()
    ensures var r := Step(BobWaiting, Message("A", ApproveJoin("B")));
            && r.sent == [Outbound("B", JoinApproved([PeerEntry("A", "Alice")])),
                          Outbound("A", PeerJoined("B", "Bob"))]
            && !r.threw && r.next.pending == {}
  {
    var s := BobWaiting;
    assert Roster(s, ["A", "B"], "B") == [PeerEntry("A", "Alice")];
    var joined := PeerJoined("B", "Bob");
    assert ["A", "B"][1..] == ["B"];
    assert Notify(s, ["B"], Some("B"), joined) == [] by {
      assert ["B"][1..] == [];
    }
    assert Notify(s, ["A", "B"], Some("B"), joined) == [Outbound("A", joined)];
  }

  /** Alice starts a call, Bob asks to join and Alice approves: Bob gets the
      roster [Alice] and Alice is told that Bob joined. */
  lemma AliceAdmitsBob()
    ensures var start := [Connect("A"), Connect("B"), Message("A", StartCall("Alice"))];
            && Run(Initial, start).Up?
            && var r1 := Step(Run(Initial, start).registry, Message("B", RequestToJoin("Bob", None)));
            var r2 := Step(r1.next, Message("A", ApproveJoin("B")));
            && r1.sent == [Outbound("A", JoinRequest("B", "Bob"))]
            && r2.sent == [Outbound("B", JoinApproved([PeerEntry("A", "Alice")])),
                           Outbound("A", PeerJoined("B", "Bob"))]
            && !r2.threw && r2.next.pending == {}
  {
    AliceStartsCall();
    BobAsksToJoin();
    AliceApprovesBob();
  }
}

=== FILE: session.dfy ===
/** The client's session manager (public/js/SessionManager.js): the call
    flags, one peer link per remote participant with its bookkeeping record,
    and the per-peer queue of remote ICE candidates that arrived before the
    link existed.

    Each handler runs to completion in one step. What the browser decides
    (whether a description or candidate is accepted, the clock, the name
    typed, media permission) is an `Env` parameter. Timers become `Schedule`
    effects whose firing is a later `TimerDue` event. */
module SessionManager {
  import opened Common
  import opened Wire
  import opened JsText
  import opened PeerLink
  import opened Actions
  import Transport

  datatype Session = Session(
    myId: Option<Id>,
    callId: Option<string>,
    myName: string,
    isHost: bool,
    handRaised: bool,
    hasLocalStream: bool,
    activePoll: Option<string>,           // the id of the poll last announced
    links: map<Id, Link>,                 // peerConnections
    records: map<Id, Record>,             // connectionStates
    queues: map<Id, seq<Candidate>>)      // queuedIceCandidates

  /** public/js/SessionManager.js:8-19 — the constructor. */
  const Initial := Session(None, None, "", false, false, false, None, map[], map[], map[])

  /** The browser's answers for one step: the clock, the trimmed-or-not text
      of the name box, camera permission, the `callId` query parameter, and
      whether creating a link, setting a local description and setting a
      remote description succeed; `refused` candidates are rejected by
      `addIceCandidate`. */
  datatype Env = Env(
    now: int,
    typedName: string,
    mediaOk: bool,
    urlCallId: Option<string>,
    createOk: bool,
    localOk: bool,
    remoteOk: bool,
    refused: set<Candidate>)

  /** The two delayed calls the manager arms: `checkAndProcessQueued`
      (which drains only when a remote description is set) and
      `processQueuedIceCandidates`. */
  datatype Timer = CheckQueued(peer: Id) | ProcessQueued(peer: Id)

  datatype Effect = Send(msg: ClientMsg) | Schedule(timer: Timer, delay: nat)

  datatype Reaction = Reaction(next: Session, effects: seq<Effect>)

  datatype Event =
    | FromServer(m: ServerMsg)                    // handleNetworkMessage, server messages
    | FromTransport(n: Transport.Notice)          // handleNetworkMessage, transport notices
    | User(a: Action)                             // handleUserAction
    | IceChanged(peer: Id, ice: Ice)              // oniceconnectionstatechange
    | Gathered(peer: Id, cand: Option<Candidate>) // onicecandidate
    | TimerDue(t: Timer)
    | Unload                                      // beforeunload

  /** Every link has a record and vice versa, and the record mirrors the
      link's two states. */
  ghost predicate Valid(s: Session) {
    && s.links.Keys == s.records.Keys
    && forall p :: p in s.links ==> s.records[p].ice == s.links[p].ice && s.records[p].signaling == s.links[p].signaling
  }

  function Quiet(s: Session): Reaction {
    Reaction(s, [])
  }

  /** Replace the link of `p` and mirror its states into the record. */
  function SetLink(s: Session, p: Id, l: Link): (r: Session)
    requires Valid(s) && p in s.links
    ensures Valid(r)
    ensures r.links == s.links[p := l] && r.records.Keys == s.records.Keys
    ensures r.records[p].createdAt == s.records[p].createdAt
    ensures r == s.(links := r.links, records := r.records)
  {
    s.(links := s.links[p := l], records := s.records[p := s.records[p].(ice := l.ice, signaling := l.signaling)])
  }

  /** public/js/SessionManager.js:864-873 — `closePeerConnection`: the link
      and its record go; the candidate queue stays. */
  function ClosePeer(s: Session, p: Id): (r: Session)
    requires Valid(s)
    ensures Valid(r)
    ensures r.links == s.links - {p} && r.records == s.records - {p}
    ensures r == s.(links := r.links, records := r.records)
  {
    s.(links := s.links - {p}, records := s.records - {p})
  }

  /** public/js/SessionManager.js:423-443, 448-558 — `getOrCreatePeerConnection`:
      a reusable link is kept as it is; any other is closed and replaced by
      a fresh one, whose record starts ICE 'new', signaling 'stable'. The
      flag says whether a link exists afterwards (creation can throw). */
  function GetOrCreate(s: Session, p: Id, env: Env): (r: (Session, bool))
    requires Valid(s)
    ensures Valid(r.0)
    ensures r.1 <==> p in r.0.links
    ensures r.0.queues == s.queues
    ensures r.0 == s.(links := r.0.links, records := r.0.records)
    ensures forall q :: q != p ==> (q in r.0.links <==> q in s.links) && (q in s.links ==> r.0.links[q] == s.links[q] && r.0.records[q] == s.records[q])
    ensures p in s.links && Reusable(s.records[p]) ==> r == (s, true)
    ensures !(p in s.links && Reusable(s.records[p])) ==>
      && r.1 == env.createOk
      && (env.createOk ==> r.0.links[p] == Fresh && r.0.records[p] == NewRecord(env.now))
  {
    if p in s.links && Reusable(s.records[p]) then (s, true)
    else
      var s1 := ClosePeer(s, p);
      if !env.createOk then (s1, false)
      else (s1.(links := s1.links[p := Fresh], records := s1.records[p := NewRecord(env.now)]), true)
  }

  /** The body of an outgoing negotiation message addressed to `p`. */
  function To(p: Id): Fields {
    map["to" := p]
  }

  /** public/js/SessionManager.js:629-659 — `createAndSendOffer`: get or
      create the link, then create and set a local offer and send it. The
      browser refuses a new offer in any signaling state but 'stable' and
      'have-local-offer'; a refusal is caught and nothing is sent. */
  function SendOffer(s: Session, p: Id, env: Env): (r: Reaction)
    requires Valid(s)
    ensures Valid(r.next)
    ensures r.next.queues == s.queues && r.next.isHost == s.isHost
    ensures r.effects == [] || r.effects == [Send(Signal(Offer, To(p)))]
    ensures r.effects != [] ==> p in r.next.links && r.next.links[p].signaling == HaveLocalOffer
  {
    var (s1, ok) := GetOrCreate(s, p, env);
    if !ok then Quiet(s1)
    else
      var l := s1.links[p];
      if env.localOk && (l.signaling == Stable || l.signaling == HaveLocalOffer) then
        Reaction(SetLink(s1, p, l.(signaling := HaveLocalOffer)), [Send(Signal(Offer, To(p)))])
      else Quiet(s1)
  }

  /** A link exists for `p` after `getOrCreatePeerConnection`. */
  predicate Available(s: Session, p: Id, env: Env) {
    (p in s.links && p in s.records && Reusable(s.records[p])) || env.createOk
  }

  /** public/js/SessionManager.js:664-696 — `handleOffer`: set the remote
      offer, answer it, send the answer, and drain the queue 200 ms later.
      The return to 'stable' also arms the 100 ms check. Any refusal is
      caught: what was already done stays, nothing more is sent. */
  function HandleOffer(s: Session, p: Id, env: Env): (r: Reaction)
    requires Valid(s)
    ensures Valid(r.next)
    ensures r.next.queues == s.queues && r.next.isHost == s.isHost
    ensures Available(s, p, env) && env.remoteOk ==> p in r.next.links && r.next.links[p].hasRemote
    ensures Available(s, p, env) && env.remoteOk && env.localOk ==>
      && r.next.links[p].signaling == Stable
      && r.effects == [Schedule(CheckQueued(p), 100), Send(Signal(Answer, To(p))), Schedule(ProcessQueued(p), 200)]
    ensures !(Available(s, p, env) && env.remoteOk && env.localOk) ==> r.effects == []
  {
    var (s1, ok) := GetOrCreate(s, p, env);
    if !ok || !env.remoteOk then Quiet(s1)
    else
      var l := s1.links[p].(hasRemote := true, signaling := HaveRemoteOffer);
      if !env.localOk then Quiet(SetLink(s1, p, l))
      else
        Reaction(SetLink(s1, p, l.(signaling := Stable)),
                 [Schedule(CheckQueued(p), 100), Send(Signal(Answer, To(p))), Schedule(ProcessQueued(p), 200)])
  }

  /** The queue of `p`, empty when it has none. */
  function Queued(s: Session, p: Id): seq<Candidate> {
    if p in s.queues then s.queues[p] else []
  }

  /** public/js/SessionManager.js:820-859 — `processQueuedIceCandidates`:
      with a link and a non-empty queue, drain it (see PeerLink.DrainQueue);
      a drain that must wait for the remote description leaves the queue as
      it was and retries in 100 ms, a completed drain deletes the entry. */
  function Flush(s: Session, p: Id, env: Env): (r: Reaction)
    requires Valid(s)
    ensures Valid(r.next)
    ensures r.next == s.(links := r.next.links, queues := r.next.queues)
    ensures r.next.links.Keys == s.links.Keys
    ensures forall q :: q != p ==> Lookup(r.next.links, q) == Lookup(s.links, q) && Lookup(r.next.queues, q) == Lookup(s.queues, q)
    ensures p !in s.links || Queued(s, p) == [] ==> r == Quiet(s)
    ensures p in s.links && Queued(s, p) != [] && !s.links[p].hasRemote ==>
      r == Reaction(s, [Schedule(ProcessQueued(p), 100)])
    ensures p in s.links && Queued(s, p) != [] && s.links[p].hasRemote ==>
      && r.effects == [] && p !in r.next.queues
      && r.next.links[p] == s.links[p].(added := s.links[p].added + Accepted(s.queues[p], env.refused))
  {
    if p !in s.queues || p !in s.links || s.queues[p] == [] then Quiet(s)
    else
      var d := Drained(s.links[p], s.queues[p], env.refused);
      if d.retry then Reaction(s, [Schedule(ProcessQueued(p), 100)])
      else Quiet(s.(links := s.links[p := d.link], queues := s.queues - {p}))
  }

  /** The link of `p` after a remote answer is set: the description is in
      and signaling returns to 'stable'. */
  function Answered(s: Session, p: Id): (r: Session)
    requires Valid(s) && p in s.links
    ensures Valid(r)
    ensures p in r.links && r.links[p].hasRemote && r.links[p].signaling == Stable
  {
    SetLink(s, p, s.links[p].(hasRemote := true, signaling := Stable))
  }

  /** public/js/SessionManager.js:701-738 — `handleAnswer`. With no link
      nothing happens. In 'have-local-offer' the answer is applied; a refusal
      there escapes to the outer catch and skips the flush. In 'stable' the
      answer is ignored. In any other state it is applied if the browser
      takes it. In every case that reaches the end, the queue is flushed. */
  function HandleAnswer(s: Session, p: Id, env: Env): (r: Reaction)
    requires Valid(s)
    ensures Valid(r.next)
    ensures p !in s.links ==> r == Quiet(s)
    ensures p in s.links && s.links[p].signaling == HaveLocalOffer && !env.remoteOk ==> r == Quiet(s)
    ensures p in s.links && (s.links[p].signaling == Stable || !env.remoteOk) ==>
      r == Flush(s, p, env) || s.links[p].signaling == HaveLocalOffer
    ensures p in s.links && s.links[p].signaling != Stable && env.remoteOk ==>
      && r.next == Flush(Answered(s, p), p, env).next
      && r.effects == [Schedule(CheckQueued(p), 100)] + Flush(Answered(s, p), p, env).effects
  {
    if p !in s.links then Quiet(s)
    else
      var sig := s.links[p].signaling;
      if sig == Stable then Flush(s, p, env)
      else if !env.remoteOk then
        if sig == HaveLocalOffer then Quiet(s) else Flush(s, p, env)
      else
        var f := Flush(Answered(s, p), p, env);
        Reaction(f.next, [Schedule(CheckQueued(p), 100)] + f.effects)
  }

  /** public/js/SessionManager.js:743-768 — `handleIceCandidate`. With no
      link the candidate joins the tail of the peer's queue, whatever it is.
      With a link, an empty candidate is ignored and any other is added,
      which the browser refuses without a remote description; a refusal is
      caught and the candidate is dropped. */
  function HandleIceCandidate(s: Session, p: Id, c: Candidate, env: Env): (r: Reaction)
    requires Valid(s)
    ensures Valid(r.next) && r.effects == []
    ensures p !in s.links ==> r.next == s.(queues := s.queues[p := Queued(s, p) + [c]])
    ensures p in s.links ==> r.next == s.(links := r.next.links, records := r.next.records)
    ensures p in s.links && (c == [] || !s.links[p].hasRemote || c in env.refused) ==> r.next == s
    ensures p in s.links && c != [] && s.links[p].hasRemote && c !in env.refused ==>
      r.next.links == s.links[p := s.links[p].(added := s.links[p].added + [c])]
  {
    if p !in s.links then Quiet(s.(queues := s.queues[p := Queued(s, p) + [c]]))
    else if c == [] then Quiet(s)
    else
      var l := s.links[p];
      if l.hasRemote && c !in env.refused then Quiet(SetLink(s, p, l.(added := l.added + [c])))
      else Quiet(s)
  }

  /** The age threshold of `restartPeerConnection`, in milliseconds. */
  const MaxLinkAge := 30000

  /** public/js/SessionManager.js:566-567 — the link's age; a missing record
      counts from time 0. */
  function Age(s: Session, p: Id, env: Env): int {
    env.now - (if p in s.records then s.records[p].createdAt else 0)
  }

  /** public/js/SessionManager.js:563-585 — `restartPeerConnection`. A link
      older than 30 s is closed; either way only the host sends a new offer,
      and a guest waits. */
  function Restart(s: Session, p: Id, env: Env): (r: Reaction)
    requires Valid(s)
    ensures Valid(r.next)
    ensures !s.isHost && Age(s, p, env) > MaxLinkAge ==> r == Quiet(ClosePeer(s, p))
    ensures !s.isHost && Age(s, p, env) <= MaxLinkAge ==> r == Quiet(s)
    ensures s.isHost ==> r.effects == [] || r.effects == [Send(Signal(Offer, To(p)))]
    ensures s.isHost && Age(s, p, env) > MaxLinkAge && env.createOk && env.localOk ==>
      && r.effects == [Send(Signal(Offer, To(p)))]
      && p in r.next.links && r.next.links[p] == Fresh.(signaling := HaveLocalOffer)
      && r.next.records[p].createdAt == env.now
  {
    if Age(s, p, env) > MaxLinkAge then
      var s1 := ClosePeer(s, p);
      if s.isHost then SendOffer(s1, p, env) else Quiet(s1)
    else if s.isHost then SendOffer(s, p, env)
    else Quiet(s)
  }

  /** public/js/SessionManager.js:997-1024 — `leaveCall`: tell the server,
      close every link, stop the camera, and forget host status, name,
      links, records and queues. The call id, hand and poll are kept. */
  function Leave(s: Session): (r: Reaction)
    ensures Valid(r.next)
    ensures r.effects == [Send(LeaveCall)]
    ensures r.next.links == map[] && r.next.records == map[] && r.next.queues == map[]
    ensures !r.next.isHost && r.next.myName == "" && !r.next.hasLocalStream
    ensures r.next.myId == s.myId && r.next.callId == s.callId
    ensures r.next.handRaised == s.handRaised && r.next.activePoll == s.activePoll
  {
    Reaction(s.(isHost := false, myName := "", hasLocalStream := false,
                links := map[], records := map[], queues := map[]),
             [Send(LeaveCall)])
  }

  /** public/js/SessionManager.js:295-328 — `handleCallAction`. The trimmed
      name is stored first; a name shorter than two characters (the empty
      one included) or a refused camera stops there. Otherwise the camera is
      on and `start-call` or `request-to-join` (with the page's `callId`
      parameter) is sent. */
  function CallAction(s: Session, start: bool, env: Env): (r: Reaction)
    ensures r.next.myName == Trim(env.typedName)
    ensures r.next == s.(myName := r.next.myName, hasLocalStream := r.next.hasLocalStream)
    ensures |Trim(env.typedName)| < 2 || !env.mediaOk ==> r.effects == [] && r.next.hasLocalStream == s.hasLocalStream
    ensures |Trim(env.typedName)| >= 2 && env.mediaOk ==>
      && r.next.hasLocalStream
      && r.effects == [Send(if start then StartCall(Trim(env.typedName)) else RequestToJoin(Trim(env.typedName), env.urlCallId))]
  {
    var name := Trim(env.typedName);
    var s1 := s.(myName := name);
    if name == [] then Quiet(s1)
    else if |name| < 2 then Quiet(s1)
    else if !env.mediaOk then Quiet(s1)
    else
      var s2 := s1.(hasLocalStream := true);
      if start then Reaction(s2, [Send(StartCall(name))])
      else Reaction(s2, [Send(RequestToJoin(name, env.urlCallId))])
  }

  /** public/js/SessionManager.js:201-290 — `handleUserAction`. */
  function OnUser(s: Session, a: Action, env: Env): (r: Reaction)
    requires Valid(s)
    ensures Valid(r.next)
  {
    match a
    case StartCallAction => CallAction(s, true, env)
    case JoinCallAction => CallAction(s, false, env)
    case ApproveAction(g) => Reaction(s, [Send(ApproveJoin(g))])
    case RejectAction(g) => Reaction(s, [Send(RejectJoin(g))])
    case KickAction(t) => if s.isHost then Reaction(s, [Send(KickUser(t))]) else Quiet(s)
    case MuteAction(t, m) => if s.isHost then Reaction(s, [Send(ToggleRemoteMute(t, m))]) else Quiet(s)
    case LeaveAction => Leave(s)
    case ToggleMicAction => Quiet(s)
    case ToggleVideoAction => Quiet(s)
    case ToggleHandAction => Reaction(s.(handRaised := !s.handRaised), [Send(HandState(!s.handRaised))])
    case StartPollAction(poll) => if s.isHost then Reaction(s, [Send(CreatePoll(poll))]) else Quiet(s)
    case SubmitVoteAction(v) => Reaction(s, [Send(SubmitVote(v))])
    case EndPollAction =>
      if s.isHost && s.activePoll.Some? then Reaction(s, [Send(EndPoll(s.activePoll.value))]) else Quiet(s)
    case SendChatAction(text) => Reaction(s, [Send(ChatMessage(text))])
    case SendPrivateChatAction(to, text) => Reaction(s, [Send(PrivateMessage(to, text))])
    case CopyInviteLinkAction => Quiet(s)
    case IsHostAction => Quiet(s)
    case OtherAction(_) => Quiet(s)
  }

  /** public/js/SessionManager.js:73-196 — `handleNetworkMessage` for the
      server's messages; `from` and `candidate` of a relayed message are
      read from its fields. */
  function OnServer(s: Session, m: ServerMsg, env: Env): (r: Reaction)
    requires Valid(s)
    ensures Valid(r.next)
  {
    match m
    case AssignId(id) => Quiet(s.(myId := Some(id)))
    case SetHost => Quiet(s.(isHost := true, callId := None))
    case NewPoll(pollId) => Quiet(s.(activePoll := Some(pollId)))
    case JoinRequest(_, _) => Quiet(s)
    case JoinApproved(_) => Quiet(s)
    case JoinRejected(_) => Leave(s)
    case PeerJoined(peer, _) => if s.isHost then SendOffer(s, peer, env) else Quiet(s)
    case PeerDisconnected(peer, _) => Quiet(ClosePeer(s, peer))
    case YouWereKicked => Leave(s)
    case YouWereMuted => Quiet(s)
    case PeerMuted(_, _) => Quiet(s)
    case Chat(_, _, _) => Quiet(s)
    case Notice(_) => Quiet(s)
    case Relayed(kind, fields) =>
      var from := Lookup(fields, "from").GetOr("");
      match kind
      case Offer => HandleOffer(s, from, env)
      case Answer => HandleAnswer(s, from, env)
      case IceCandidate => HandleIceCandidate(s, from, Lookup(fields, "candidate").GetOr(""), env)
  }

  /** One event. */
  function Step(s: Session, e: Event, env: Env): (r: Reaction)
    requires Valid(s)
    ensures Valid(r.next)
  {
    match e
    case FromServer(m) => OnServer(s, m, env)
    case FromTransport(_) => Quiet(s)
    case User(a) => OnUser(s, a, env)
    case IceChanged(p, ice) =>
      // public/js/SessionManager.js:500-504: the record mirrors the new state
      if p in s.links then Quiet(SetLink(s, p, s.links[p].(ice := ice))) else Quiet(s)
    case Gathered(p, cand) =>
      // public/js/SessionManager.js:478-490: each local candidate goes to the peer
      if cand.Some? && p in s.links then
        Reaction(s, [Send(Signal(IceCandidate, map["to" := p, "candidate" := cand.value]))])
      else Quiet(s)
    case TimerDue(CheckQueued(p)) =>
      // public/js/SessionManager.js:536-540: only with a remote description
      if p in s.links && s.links[p].hasRemote && p in s.queues then Flush(s, p, env) else Quiet(s)
    case TimerDue(ProcessQueued(p)) => Flush(s, p, env)
    case Unload =>
      // public/js/SessionManager.js:62-68
      if s.hasLocalStream || |s.links| > 0 then Leave(s) else Quiet(s)
  }

  /** The session after a sequence of events, each with the browser's
      answers for it, and every effect in order. */
  function Run(s: Session, events: seq<(Event, Env)>): (r: Reaction)
    requires Valid(s)
    ensures Valid(r.next)
    decreases |events|
  {
    if events == [] then Quiet(s)
    else
      var first := Step(s, events[0].0, events[0].1);
      var rest := Run(first.next, events[1..]);
      Reaction(rest.next, first.effects + rest.effects)
  }
}

=== FILE: session_props.dfy ===
/** Properties of the session manager that relate its handlers to the rules
    the client follows: link reuse, who makes offers, host-only actions,
    teardown, and the candidate queue. */
module SessionProperties {
  import opened Common
  import opened Wire
  import opened PeerLink
  import opened Actions
  import opened SessionManager

  /** An existing link survives `getOrCreatePeerConnection` unchanged iff its
      record allows reuse; otherwise a new link takes its place. */
  lemma ReuseRule(s: Session, p: Id, env: Env)
    requires Valid(s) && p in s.links && env.createOk
    ensures var (s1, ok) := GetOrCreate(s, p, env);
            && ok && p in s1.links
            && (s1.links[p] == s.links[p] <==> Reusable(s.records[p]))
            && (!Reusable(s.records[p]) ==> s1.records[p] == NewRecord(env.now))
  {
    if !Reusable(s.records[p]) {
      assert s.links[p].signaling != Fresh.signaling;
    }
  }

  predicate IsOffer(e: Effect) {
    e.Send? && e.msg.Signal? && e.msg.kind == Offer
  }

  /** Some effect sends an offer. */
  predicate SendsOffer(effects: seq<Effect>) {
    exists i :: 0 <= i < |effects| && IsOffer(effects[i])
  }

  /** A queue flush only arms timers. */
  lemma FlushSendsNoOffer(s: Session, p: Id, env: Env)
    requires Valid(s)
    ensures !SendsOffer(Flush(s, p, env).effects)
  {
  }

  /** Handling an answer never sends an offer. */
  lemma AnswerSendsNoOffer(s: Session, p: Id, env: Env)
    requires Valid(s)
    ensures !SendsOffer(HandleAnswer(s, p, env).effects)
  {
    if p in s.links {
      if s.links[p].signaling != Stable && env.remoteOk {
        FlushSendsNoOffer(Answered(s, p), p, env);
      } else {
        FlushSendsNoOffer(s, p, env);
      }
    }
  }

  /** No user action makes anyone send an offer. */
  lemma UserSendsNoOffer(s: Session, a: Action, env: Env)
    requires Valid(s)
    ensures !SendsOffer(OnUser(s, a, env).effects)
  {
  }

  /** Of the server's messages, only `peer-joined` can lead to an offer,
      and only for the host. */
  lemma GuestServerMessageSendsNoOffer(s: Session, m: ServerMsg, env: Env)
    requires Valid(s) && !s.isHost
    ensures !SendsOffer(OnServer(s, m, env).effects)
  {
    if m.Relayed? && m.kind == Answer {
      AnswerSendsNoOffer(s, Lookup(m.fields, "from").GetOr(""), env);
    }
  }

  /** Only the host originates offers: no event makes a guest send one. */
  lemma OnlyHostOffers(s: Session, e: Event, env: Env)
    requires Valid(s) && !s.isHost
    ensures !SendsOffer(Step(s, e, env).effects)
  {
    match e
    case FromServer(m) => GuestServerMessageSendsNoOffer(s, m, env);
    case User(a) => UserSendsNoOffer(s, a, env);
    case TimerDue(t) => FlushSendsNoOffer(s, t.peer, env);
    case _ =>
  }

  /** A host that hears of a new peer it has no link to offers to it when the
      browser cooperates; a guest never does, and `join-approved` sends
      nothing at all. */
  lemma OffersOnPeerJoined(s: Session, p: Id, name: string, peers: seq<PeerEntry>, env: Env)
    requires Valid(s)
    ensures !s.isHost ==> Step(s, FromServer(PeerJoined(p, name)), env) == Quiet(s)
    ensures s.isHost && p !in s.links && env.createOk && env.localOk ==>
      Step(s, FromServer(PeerJoined(p, name)), env).effects == [Send(Signal(Offer, To(p)))]
    ensures Step(s, FromServer(JoinApproved(peers)), env) == Quiet(s)
  {
  }

  /** Kick, mute and poll start are sent only by the host, and poll end only
      by the host with a poll running; otherwise nothing changes. Each sends
      exactly one message when allowed. */
  lemma HostGating(s: Session, a: Action, env: Env)
    requires Valid(s)
    requires a.KickAction? || a.MuteAction? || a.StartPollAction? || a.EndPollAction?
    ensures var r := Step(s, User(a), env);
            && r.next == s
            && (r.effects != [] <==> s.isHost && (a.EndPollAction? ==> s.activePoll.Some?))
            && |r.effects| <= 1
            && (a.KickAction? && s.isHost ==> r.effects == [Send(KickUser(a.target))])
            && (a.MuteAction? && s.isHost ==> r.effects == [Send(ToggleRemoteMute(a.target, a.shouldMute))])
            && (a.StartPollAction? && s.isHost ==> r.effects == [Send(CreatePoll(a.poll))])
            && (a.EndPollAction? && r.effects != [] ==> r.effects == [Send(EndPoll(s.activePoll.value))])
  {
  }

  /** Approving or rejecting a guest is sent whoever clicks, and changes
      nothing locally. */
  lemma JoinDecisionsUngated(s: Session, g: Id, env: Env)
    requires Valid(s)
    ensures Step(s, User(ApproveAction(g)), env) == Reaction(s, [Send(ApproveJoin(g))])
    ensures Step(s, User(RejectAction(g)), env) == Reaction(s, [Send(RejectJoin(g))])
  {
  }

  /** Raising the hand flips the flag and announces the new value; doing it
      twice restores the flag after announcing both values. */
  lemma ToggleHandTwice(s: Session, env: Env)
    requires Valid(s)
    ensures var r1 := Step(s, User(ToggleHandAction), env);
            var r2 := Step(r1.next, User(ToggleHandAction), env);
            && r1.next.handRaised == !s.handRaised
            && r1.effects == [Send(HandState(!s.handRaised))]
            && r2.next == s
            && r2.effects == [Send(HandState(s.handRaised))]
  {
  }

  /** Leaving, being kicked and being rejected all leave no link, record or
      queue behind, drop host status and the name, and tell the server. */
  lemma TeardownLeavesNothing(s: Session, e: Event, env: Env)
    requires Valid(s)
    requires e == User(LeaveAction) || e == FromServer(YouWereKicked) || (e.FromServer? && e.m.JoinRejected?)
    ensures var r := Step(s, e, env);
            && r.next.links == map[] && r.next.records == map[] && r.next.queues == map[]
            && !r.next.isHost && r.next.myName == ""
            && r.effects == [Send(LeaveCall)]
  {
  }

  /** A departed peer's link and record go, and nothing else: its queued
      candidates, the other links and the flags stay. */
  lemma PeerLeftClosesOnlyThatLink(s: Session, p: Id, name: string, env: Env)
    requires Valid(s)
    ensures var r := Step(s, FromServer(PeerDisconnected(p, name)), env);
            && r.effects == []
            && r.next.links == s.links - {p} && r.next.records == s.records - {p}
            && r.next.queues == s.queues
            && r.next == s.(links := r.next.links, records := r.next.records)
  {
  }

  /** The relayed candidate messages carrying `cs` from peer `p`, in order. */
  function Arrivals(p: Id, cs: seq<Candidate>, env: Env): (events: seq<(Event, Env)>)
    ensures |events| == |cs|
    ensures forall i :: 0 <= i < |cs| ==>
      events[i] == (FromServer(Relayed(IceCandidate, map["from" := p, "candidate" := cs[i]])), env)
  {
    seq(|cs|, i requires 0 <= i < |cs| =>
      (FromServer(Relayed(IceCandidate, map["from" := p, "candidate" := cs[i]])), env))
  }

  /** Dropping the first arrival leaves the arrivals of the rest. */
  lemma ArrivalsTail(p: Id, cs: seq<Candidate>, env: Env)
    requires cs != []
    ensures Arrivals(p, cs, env)[1..] == Arrivals(p, cs[1..], env)
  {
  }

  /** The first candidate, for a peer with no link, joins the tail of its queue. */
  lemma ArrivalQueued(s: Session, p: Id, cs: seq<Candidate>, env: Env)
    requires Valid(s) && p !in s.links && cs != []
    ensures var e := Arrivals(p, cs, env)[0];
            Step(s, e.0, e.1) == Quiet(s.(queues := s.queues[p := Queued(s, p) + [cs[0]]]))
  {
    var fields: Fields := map["from" := p, "candidate" := cs[0]];
    assert Arrivals(p, cs, env)[0] == (FromServer(Relayed(IceCandidate, fields)), env);
    assert Lookup(fields, "from").GetOr("") == p;
    assert Lookup(fields, "candidate").GetOr("") == cs[0];
  }

  /** A run of arrivals queues the first and goes on with the rest. */
  lemma FirstArrival(s: Session, p: Id, cs: seq<Candidate>, env: Env)
    requires Valid(s) && p !in s.links && cs != []
    ensures var next := s.(queues := s.queues[p := Queued(s, p) + [cs[0]]]);
            Valid(next) && Run(s, Arrivals(p, cs, env)) == Run(next, Arrivals(p, cs[1..], env))
  {
    var next := s.(queues := s.queues[p := Queued(s, p) + [cs[0]]]);
    ArrivalQueued(s, p, cs, env);
    RunQuietStep(s, Arrivals(p, cs, env), next);
    ArrivalsTail(p, cs, env);
  }

  /** Candidates that arrive before the link exists are queued in arrival
      order behind what was already queued, empty ones included. */
  lemma {:induction false} QueueKeepsArrivalOrder(s: Session, p: Id, cs: seq<Candidate>, env: Env)
    requires Valid(s) && p !in s.links
    ensures var r := Run(s, Arrivals(p, cs, env));
            && r.effects == []
            && Queued(r.next, p) == Queued(s, p) + cs
            && r.next == s.(queues := r.next.queues)
    decreases |cs|
  {
    if cs == [] {
      assert Queued(s, p) + cs == Queued(s, p);
    } else {
      var next := s.(queues := s.queues[p := Queued(s, p) + [cs[0]]]);
      FirstArrival(s, p, cs, env);
      QueueKeepsArrivalOrder(next, p, cs[1..], env);
      QueueOneMore(s, p, cs);
    }
  }

  /** Queueing the first candidate and then the rest queues them all. */
  lemma QueueOneMore(s: Session, p: Id, cs: seq<Candidate>)
    requires cs != []
    ensures var next := s.(queues := s.queues[p := Queued(s, p) + [cs[0]]]);
            && Queued(next, p) + cs[1..] == Queued(s, p) + cs
            && next.(queues := s.queues) == s
  {
    assert Queued(s, p) + [cs[0]] + cs[1..] == Queued(s, p) + cs;
  }

  /** A run whose first event changes the session quietly continues from the
      changed session. */
  lemma RunQuietStep(s: Session, events: seq<(Event, Env)>, next: Session)
    requires Valid(s) && events != [] && Step(s, events[0].0, events[0].1) == Quiet(next)
    ensures Valid(next) && Run(s, events) == Run(next, events[1..])
  {
    var rest := Run(next, events[1..]);
    assert Run(s, events) == Reaction(rest.next, [] + rest.effects);
    assert [] + rest.effects == rest.effects;
  }

  /** A flush loses only refused candidates: every other queued candidate is
      either still queued (the drain waits for a remote description) or now
      added to the link, behind what it had, in queue order. */
  lemma FlushLosesNothing(s: Session, p: Id, env: Env, c: Candidate)
    requires Valid(s) && p in s.links && c in Queued(s, p) && c !in env.refused
    ensures var r := Flush(s, p, env);
            && p in r.next.links
            && (Queued(r.next, p) == Queued(s, p)
                || (Queued(r.next, p) == [] && c in r.next.links[p].added[|s.links[p].added|..]))
  {
    AcceptedMembers(s.queues[p], env.refused, c);
    var r := Flush(s, p, env);
    if s.links[p].hasRemote {
      var added := s.links[p].added + Accepted(s.queues[p], env.refused);
      assert added[|s.links[p].added|..] == Accepted(s.queues[p], env.refused);
    }
  }

  /** With no link, an answer changes nothing and flushes nothing; in
      'stable' it is ignored: the link keeps its signaling state and
      description, and only the flush may add candidates. */
  lemma AnswerDecision(s: Session, p: Id, env: Env)
    requires Valid(s)
    ensures p !in s.links ==> HandleAnswer(s, p, env) == Quiet(s)
    ensures p in s.links && s.links[p].signaling == Stable ==>
      var r := HandleAnswer(s, p, env);
      && p in r.next.links
      && r.next.links[p] == s.links[p].(added := r.next.links[p].added)
      && r.next.isHost == s.isHost
  {
  }
}

=== FILE: transport.dfy ===
/** The client's signaling transport (public/js/NetworkClient.js): one
    WebSocket at a time, automatic reconnection with exponential back-off, and
    a queue of messages sent while the socket was not open.

    Timers are not wall-clock time: arming one is recorded in the state and
    its firing is a later event. */
module Transport {
  import opened Common
  import opened Wire

  const MaxReconnectAttempts: nat := 5
  const ReconnectInterval: real := 2000.0
  /** The close code of a deliberate, normal closure. */
  const NormalClosure: int := 1000

  /** `WebSocket.readyState`. */
  datatype ReadyState = Connecting | Open | Closing | Closed

  /** The fields of a NetworkClient that drive its behaviour. `armedTimers`
      counts reconnect timers set and not yet fired. */
  datatype Client = Client(
    socket: Option<ReadyState>,
    isConnected: bool,
    attempts: nat,
    pending: seq<ClientMsg>,
    armedTimers: nat)

  /** public/js/NetworkClient.js:10-19 — the constructor. */
  const Initial := Client(None, false, 0, [], 0)

  datatype ErrorCause = CreateFailed | SocketError

  /** What the client reports to its owner through `onMessage`. */
  datatype Notice =
    | ConnectionClosed(code: int, reason: string)
    | Reconnecting(attempt: nat, maxAttempts: nat)
    | ConnectionError(cause: ErrorCause)

  datatype Event =
    | Connect(fails: bool)              // connect(); `fails` when the WebSocket constructor throws
    | Opened(accepted: nat)             // 'open'; the first `accepted` flushed sends do not throw
    | CloseEvent(code: int, reason: string) // 'close'
    | Errored                           // 'error'
    | TimerFired(fails: bool)           // a reconnect timer fires
    | UserSend(msg: ClientMsg, throws: bool)
    | UserClose                         // close()

  /** The effect of one event: the new client, the messages written to the
      socket in order, the notices, and the delays of timers armed. */
  datatype Outcome = Outcome(next: Client, wire: seq<ClientMsg>, notices: seq<Notice>, delays: seq<real>)

  ghost predicate Valid(c: Client) {
    c.attempts <= MaxReconnectAttempts
  }

  function Pow(b: real, n: nat): real {
    if n == 0 then 1.0 else b * Pow(b, n - 1)
  }

  lemma {:induction false} PowAtLeastOne(n: nat)
    ensures Pow(1.5, n) >= 1.0
  {
    if n > 0 {
      PowAtLeastOne(n - 1);
    }
  }

  /** public/js/NetworkClient.js:86 — the wait before reconnect attempt `k`,
      `2000 * 1.5^(k-1)` milliseconds (1.5 is exact as a rational). */
  function Delay(k: nat): (d: real)
    requires k >= 1
    ensures d >= ReconnectInterval
    ensures k == 1 ==> d == ReconnectInterval
  {
    PowAtLeastOne(k - 1);
    ReconnectInterval * Pow(1.5, k - 1)
  }

  /** Each attempt waits strictly longer than the one before, by half again. */
  lemma DelayGrows(k: nat)
    requires k >= 1
    ensures Delay(k + 1) == Delay(k) * 1.5
    ensures Delay(k + 1) > Delay(k)
  {
  }

  /** The five waits the attempt cap allows, in milliseconds. */
  lemma DelaySchedule()
    ensures Delay(1) == 2000.0 && Delay(2) == 3000.0 && Delay(3) == 4500.0
    ensures Delay(4) == 6750.0 && Delay(5) == 10125.0
  {
  }

  /** public/js/NetworkClient.js:116-130 — `send`: written out when the socket is OPEN
      and the write does not throw; queued at the tail when it is not OPEN. */
  function Send(c: Client, msg: ClientMsg, throws: bool): (r: (Client, seq<ClientMsg>, bool))
    ensures c.socket == Some(Open) ==> r.0 == c && r.2 == !throws && r.1 == (if throws then [] else [msg])
    ensures c.socket != Some(Open) ==> r.0 == c.(pending := c.pending + [msg]) && r.1 == [] && !r.2
  {
    if c.socket == Some(Open) then
      if throws then (c, [], false) else (c, [msg], true)
    else (c.(pending := c.pending + [msg]), [], false)
  }

  /** The client after `send` is called for each of `msgs` in turn. */
  function SendAll(c: Client, msgs: seq<ClientMsg>, throws: bool): (r: (Client, seq<ClientMsg>))
    decreases |msgs|
  {
    if msgs == [] then (c, [])
    else
      var (c1, wire, _) := Send(c, msgs[0], throws);
      var rest := SendAll(c1, msgs[1..], throws);
      (rest.0, wire + rest.1)
  }

  /** Messages sent while the socket is not OPEN are queued in the order they
      were sent, and an open that accepts every send writes them out in that
      order behind the earlier queue. */
  lemma {:induction false} QueuedSendsFlushInOrder(c: Client, msgs: seq<ClientMsg>, throws: bool)
    requires c.socket != Some(Open)
    ensures var (c1, wire) := SendAll(c, msgs, throws);
            && wire == []
            && c1 == c.(pending := c.pending + msgs)
            && Flushed(c1.(socket := Some(Open)), |c1.pending|).1 == c.pending + msgs
            && Flushed(c1.(socket := Some(Open)), |c1.pending|).0.pending == []
    decreases |msgs|
  {
    if msgs == [] {
      assert c.pending + msgs == c.pending;
    } else {
      var c1 := c.(pending := c.pending + [msgs[0]]);
      assert Send(c, msgs[0], throws) == (c1, [], false);
      QueuedSendsFlushInOrder(c1, msgs[1..], throws);
      assert c1.pending + msgs[1..] == c.pending + msgs;
    }
    var c2 := SendAll(c, msgs, throws).0.(socket := Some(Open));
    assert c2.pending[..|c2.pending|] == c2.pending;
  }

  function Min(a: nat, b: nat): nat {
    if a < b then a else b
  }

  /** public/js/NetworkClient.js:135-144 — `flushPendingMessages`, with the first
      `accepted` sends succeeding and the next one throwing. While the socket
      is OPEN the queue drains in order and the message whose send failed goes
      back to the head. (Were it not OPEN, the failed send would already have
      queued the message at the tail, and putting it back at the head would
      leave it there twice.) */
  method FlushPendingMessages(c: Client, accepted: nat) returns (r: Client, wire: seq<ClientMsg>)
    ensures (r, wire) == Flushed(c, accepted)
  {
    var queue := c.pending;
    wire := [];
    var tries := 0;
    while |queue| > 0
      invariant c.socket == Some(Open) ==> tries <= accepted && wire + queue == c.pending && |wire| == tries
      invariant c.socket != Some(Open) ==> wire == [] && queue == c.pending
      decreases |queue|
    {
      var message := queue[0];
      ShiftHead(wire, queue);
      queue := queue[1..];
      var res := Send(c.(pending := queue), message, tries >= accepted);
      queue := res.0.pending;
      if !res.2 {
        queue := [message] + queue;
        r := c.(pending := queue);
        if c.socket == Some(Open) {
          FlushStopsAt(c, accepted, wire, queue);
        } else {
          FlushNotOpen(c, accepted, r);
        }
        return;
      }
      wire := wire + res.1;
      tries := tries + 1;
    }
    r := c.(pending := queue);
    if c.socket == Some(Open) {
      FlushStopsAt(c, accepted, wire, queue);
    }
  }

  /** Moving the head of q to the end of w keeps w + q. */
  lemma ShiftHead<T>(w: seq<T>, q: seq<T>)
    requires q != []
    ensures (w + [q[0]]) + q[1..] == w + q
  {
    assert q == [q[0]] + q[1..];
  }

  /** On a socket that is not open, the first message goes to the tail of
      the queue and is put back at its head as well. */
  lemma FlushNotOpen(c: Client, accepted: nat, r: Client)
    requires c.socket != Some(Open) && |c.pending| > 0
    requires r == c.(pending := [c.pending[0]] + (c.pending[1..] + [c.pending[0]]))
    ensures Flushed(c, accepted) == (r, [])
  {
    assert [c.pending[0]] + (c.pending[1..] + [c.pending[0]]) == [c.pending[0]] + c.pending[1..] + [c.pending[0]];
  }

  /** On an open socket, a flush whose sends succeed for exactly the messages
      in `wire` leaves the rest queued. */
  lemma FlushStopsAt(c: Client, accepted: nat, wire: seq<ClientMsg>, rest: seq<ClientMsg>)
    requires c.socket == Some(Open) && wire + rest == c.pending && |wire| == Min(accepted, |c.pending|)
    ensures Flushed(c, accepted) == (c.(pending := rest), wire)
  {
    assert c.pending[..|wire|] == wire && c.pending[|wire|..] == rest;
  }

  /** The result of `flushPendingMessages` in closed form (see FlushPendingMessages). */
  function Flushed(c: Client, accepted: nat): (res: (Client, seq<ClientMsg>))
    ensures res.0 == c.(pending := res.0.pending)
    ensures c.socket == Some(Open) ==>
      var k := Min(accepted, |c.pending|);
      res.1 == c.pending[..k] && res.0.pending == c.pending[k..] && res.1 + res.0.pending == c.pending
    ensures c.socket != Some(Open) && |c.pending| > 0 ==>
      res.1 == [] && res.0.pending == [c.pending[0]] + c.pending[1..] + [c.pending[0]]
    ensures c.socket != Some(Open) && c.pending == [] ==> res == (c, [])
  {
    if c.socket == Some(Open) then
      var k := Min(accepted, |c.pending|);
      (c.(pending := c.pending[k..]), c.pending[..k])
    else if |c.pending| > 0 then
      (c.(pending := [c.pending[0]] + c.pending[1..] + [c.pending[0]]), [])
    else (c, [])
  }

  /** public/js/NetworkClient.js:24-34 — `connect`: a new socket in CONNECTING, or an
      error notice when the constructor throws. */
  function ConnectNow(c: Client, fails: bool): (o: Outcome)
    ensures fails ==> o == Outcome(c, [], [ConnectionError(CreateFailed)], [])
    ensures !fails ==> o == Outcome(c.(socket := Some(Connecting)), [], [], [])
  {
    if fails then Outcome(c, [], [ConnectionError(CreateFailed)], [])
    else Outcome(c.(socket := Some(Connecting)), [], [], [])
  }

  /** public/js/NetworkClient.js:71-101 — the 'close' listener, `handleDisconnection`
      and `attemptReconnect`. */
  function Disconnected(c: Client, code: int, reason: string): (o: Outcome)
    requires Valid(c)
    ensures Valid(o.next)
    ensures |o.notices| >= 1 && o.notices[0] == ConnectionClosed(code, reason)
    ensures !o.next.isConnected && o.next.socket == Some(Closed) && o.next.pending == c.pending
    ensures code != NormalClosure && c.attempts < MaxReconnectAttempts ==>
      && o.next.attempts == c.attempts + 1
      && o.notices == [ConnectionClosed(code, reason), Reconnecting(c.attempts + 1, MaxReconnectAttempts)]
      && o.delays == [Delay(c.attempts + 1)]
      && o.next.armedTimers == c.armedTimers + 1
    ensures code == NormalClosure || c.attempts == MaxReconnectAttempts ==>
      && o.next.attempts == c.attempts && o.notices == [ConnectionClosed(code, reason)]
      && o.delays == [] && o.next.armedTimers == c.armedTimers
  {
    var c1 := c.(socket := Some(Closed), isConnected := false);
    if code != NormalClosure && c.attempts < MaxReconnectAttempts then
      var n := c.attempts + 1;
      Outcome(c1.(attempts := n, armedTimers := c.armedTimers + 1), [],
              [ConnectionClosed(code, reason), Reconnecting(n, MaxReconnectAttempts)], [Delay(n)])
    else Outcome(c1, [], [ConnectionClosed(code, reason)], [])
  }

  /** public/js/NetworkClient.js:149-155 — `close()`, as written: it closes the socket
      with code 1000 and raises the attempt counter to the cap, but leaves any
      reconnect timer already armed. */
  function Close(c: Client): (r: Client)
    ensures r.attempts == MaxReconnectAttempts && !r.isConnected
    ensures r.armedTimers == c.armedTimers && r.pending == c.pending
  {
    var socket := match c.socket
      case Some(Connecting) => Some(Closing)
      case Some(Open) => Some(Closing)
      case other => other;
    c.(socket := socket, isConnected := false, attempts := MaxReconnectAttempts)
  }

  /** `close()` as evidently intended: the same, and the armed reconnect
      timers are cancelled. */
  function CloseCancelling(c: Client): (r: Client)
    ensures r.attempts == MaxReconnectAttempts && !r.isConnected && r.armedTimers == 0
    ensures r.socket != Some(Open) && r.socket != Some(Connecting)
  {
    Close(c).(armedTimers := 0)
  }

  /** One event, as the code is written; `cancelOnClose` selects the
      corrected `close()`. A socket fires 'open' only while CONNECTING and
      'close' only once. */
  function StepWith(c: Client, e: Event, cancelOnClose: bool): (o: Outcome)
    requires Valid(c)
    ensures Valid(o.next)
    ensures e.Opened? && c.socket == Some(Connecting) ==>
              && o.next.socket == Some(Open) && o.next.isConnected && o.next.attempts == 0
              && o.notices == [] && o.wire + o.next.pending == c.pending
    ensures e.Opened? && c.socket != Some(Connecting) ==> o == Outcome(c, [], [], [])
    ensures e.TimerFired? && 0 < c.armedTimers ==>
              && o.next.armedTimers == c.armedTimers - 1 && o.wire == [] && o.delays == []
              && (c.isConnected ==> o.next == c.(armedTimers := c.armedTimers - 1) && o.notices == [])
              && (!c.isConnected && !e.fails ==> o.next.socket == Some(Connecting) && o.notices == [])
              && (!c.isConnected && e.fails ==> o.notices == [ConnectionError(CreateFailed)])
  {
    match e
    case Connect(fails) => ConnectNow(c, fails)
    case Opened(accepted) =>
      if c.socket != Some(Connecting) then Outcome(c, [], [], [])
      else
        var (c1, wire) := Flushed(c.(socket := Some(Open), isConnected := true, attempts := 0), accepted);
        Outcome(c1, wire, [], [])
    case CloseEvent(code, reason) =>
      if c.socket.None? || c.socket == Some(Closed) then Outcome(c, [], [], [])
      else Disconnected(c, code, reason)
    case Errored => Outcome(c, [], [ConnectionError(SocketError)], [])
    case TimerFired(fails) =>
      if c.armedTimers == 0 then Outcome(c, [], [], [])
      else
        var c1 := c.(armedTimers := c.armedTimers - 1);
        if c1.isConnected then Outcome(c1, [], [], []) else ConnectNow(c1, fails)
    case UserSend(msg, throws) =>
      var (c1, wire, _) := Send(c, msg, throws);
      Outcome(c1, wire, [], [])
    case UserClose => Outcome(if cancelOnClose then CloseCancelling(c) else Close(c), [], [], [])
  }

  /** One event with `close()` as written: 'open' on a CONNECTING socket
      marks the client connected, resets the attempt counter and flushes the
      queue in order; a fired reconnect timer reconnects exactly when the
      client is not connected. */
  function Step(c: Client, e: Event): (o: Outcome)
    requires Valid(c)
    ensures Valid(o.next)
    ensures e.Opened? && c.socket == Some(Connecting) ==>
              && o.next.socket == Some(Open) && o.next.isConnected && o.next.attempts == 0
              && o.notices == [] && o.wire + o.next.pending == c.pending
    ensures e.Opened? && c.socket != Some(Connecting) ==> o == Outcome(c, [], [], [])
    ensures e.TimerFired? && 0 < c.armedTimers ==>
              && o.next.armedTimers == c.armedTimers - 1 && o.wire == [] && o.delays == []
              && (c.isConnected ==> o.next == c.(armedTimers := c.armedTimers - 1) && o.notices == [])
              && (!c.isConnected && !e.fails ==> o.next.socket == Some(Connecting) && o.notices == [])
              && (!c.isConnected && e.fails ==> o.notices == [ConnectionError(CreateFailed)])
  {
    StepWith(c, e, false)
  }

  /** The client after a sequence of events, and every notice emitted. */
  function Run(c: Client, events: seq<Event>, cancelOnClose: bool): (r: (Client, seq<Notice>))
    requires Valid(c)
    ensures Valid(r.0)
    decreases |events|
  {
    if events == [] then (c, [])
    else
      var o := StepWith(c, events[0], cancelOnClose);
      var rest := Run(o.next, events[1..], cancelOnClose);
      (rest.0, o.notices + rest.1)
  }

  function CountReconnecting(ns: seq<Notice>): nat {
    if ns == [] then 0 else (if ns[0].Reconnecting? then 1 else 0) + CountReconnecting(ns[1..])
  }

  lemma {:induction false} CountReconnectingAppend(a: seq<Notice>, b: seq<Notice>)
    ensures CountReconnecting(a + b) == CountReconnecting(a) + CountReconnecting(b)
  {
    if a != [] {
      assert (a + b)[0] == a[0];
      assert (a + b)[1..] == a[1..] + b;
      CountReconnectingAppend(a[1..], b);
    } else {
      assert a + b == b;
    }
  }

  predicate NoOpen(events: seq<Event>) {
    forall i :: 0 <= i < |events| ==> !events[i].Opened?
  }

  /** One event that is not 'open' raises the attempt counter by at least
      the reconnect attempts it announces. */
  lemma StepBound(c: Client, e: Event, cancelOnClose: bool)
    requires Valid(c) && !e.Opened?
    ensures var o := StepWith(c, e, cancelOnClose);
            c.attempts + CountReconnecting(o.notices) <= o.next.attempts
  {
    var o := StepWith(c, e, cancelOnClose);
    match e
    case CloseEvent(code, reason) =>
      if !(c.socket.None? || c.socket == Some(Closed)) {
        var n := o.notices;
        if code != NormalClosure && c.attempts < MaxReconnectAttempts {
          assert n == [ConnectionClosed(code, reason), Reconnecting(c.attempts + 1, MaxReconnectAttempts)];
          assert n[1..] == [Reconnecting(c.attempts + 1, MaxReconnectAttempts)];
          assert n[1..][1..] == [];
          assert CountReconnecting(n[1..]) == 1;
        } else {
          assert n[1..] == [];
        }
      }
    case Errored =>
      assert o.notices[1..] == [];
    case Connect(fails) =>
      if fails {
        assert o.notices[1..] == [];
      }
    case TimerFired(fails) =>
      if o.notices != [] {
        assert o.notices[1..] == [];
      }
    case _ =>
  }

  /** Reconnection is bounded: until the socket opens again, the attempts
      announced never exceed what is left under the cap. */
  lemma {:induction false} ReconnectsBounded(c: Client, events: seq<Event>, cancelOnClose: bool)
    requires Valid(c) && NoOpen(events)
    ensures var r := Run(c, events, cancelOnClose);
            c.attempts + CountReconnecting(r.1) <= r.0.attempts <= MaxReconnectAttempts
    decreases |events|
  {
    if events != [] {
      var o := StepWith(c, events[0], cancelOnClose);
      var rest := Run(o.next, events[1..], cancelOnClose);
      assert Run(c, events, cancelOnClose) == (rest.0, o.notices + rest.1);
      assert NoOpen(events[1..]);
      StepBound(c, events[0], cancelOnClose);
      ReconnectsBounded(o.next, events[1..], cancelOnClose);
      CountReconnectingAppend(o.notices, rest.1);
    }
  }

  /** After `close()`, no disconnection announces a reconnect attempt, for
      as long as the socket does not open again. */
  lemma NoReconnectNoticeAfterClose(c: Client, events: seq<Event>, cancelOnClose: bool)
    requires Valid(c) && NoOpen(events)
    ensures var c1 := StepWith(c, UserClose, cancelOnClose).next;
            CountReconnecting(Run(c1, events, cancelOnClose).1) == 0
  {
    var c1 := StepWith(c, UserClose, cancelOnClose).next;
    ReconnectsBounded(c1, events, cancelOnClose);
  }

  /** The finding, as written: a reconnect timer armed before `close()`
      still fires and reconnects, and the socket opens again. */
  lemma ReconnectsAfterClose()
    ensures var events := [Connect(false), Opened(0), CloseEvent(1006, ""), UserClose, TimerFired(false), Opened(0)];
            var r := Run(Initial, events, false);
            r.0.isConnected && r.0.socket == Some(Open) && r.0.attempts == 0
  {
    var events := [Connect(false), Opened(0), CloseEvent(1006, ""), UserClose, TimerFired(false), Opened(0)];
    var c1 := Step(Initial, Connect(false)).next;
    var c2 := Step(c1, Opened(0)).next;
    var c3 := Step(c2, CloseEvent(1006, "")).next;
    assert c3.armedTimers == 1;
    var c4 := Step(c3, UserClose).next;
    var c5 := Step(c4, TimerFired(false)).next;
    assert c5.socket == Some(Connecting);
    var c6 := Step(c5, Opened(0)).next;
    assert c6.isConnected;
    assert Run(c6, [], false).0 == c6;
    assert events[5..] == [Opened(0)];
    assert events[4..] == [TimerFired(false), Opened(0)];
    assert events[3..] == [UserClose, TimerFired(false), Opened(0)];
    assert events[2..] == [CloseEvent(1006, ""), UserClose, TimerFired(false), Opened(0)];
    assert events[1..] == [Opened(0), CloseEvent(1006, ""), UserClose, TimerFired(false), Opened(0)];
  }

  /** The connection `close()` leaves behind once its timers are cancelled. */
  ghost predicate ShutDown(c: Client) {
    && c.armedTimers == 0 && c.attempts == MaxReconnectAttempts && !c.isConnected
    && c.socket != Some(Open) && c.socket != Some(Connecting)
  }

  /** With the corrected `close()`, nothing but the application's own
      `connect()` can bring the socket back. */
  lemma {:induction false} StaysClosedAfterCancellingClose(c: Client, events: seq<Event>)
    requires Valid(c)
    requires forall i :: 0 <= i < |events| ==> !events[i].Connect?
    ensures ShutDown(Run(CloseCancelling(c), events, true).0)
  {
    StaysShutDown(CloseCancelling(c), events);
  }

  lemma {:induction false} StaysShutDown(c: Client, events: seq<Event>)
    requires Valid(c) && ShutDown(c)
    requires forall i :: 0 <= i < |events| ==> !events[i].Connect?
    ensures ShutDown(Run(c, events, true).0)
    decreases |events|
  {
    if events != [] {
      var o := StepWith(c, events[0], true);
      assert ShutDown(o.next);
      StaysShutDown(o.next, events[1..]);
    }
  }

  /** public/js/NetworkClient.js:160-175 — `getConnectionState`. */
  function ConnectionState(c: Client): (s: string)
    ensures s == "connected" <==> c.socket == Some(Open)
    ensures s == "disconnected" <==> c.socket.None? || c.socket == Some(Closed)
    ensures s == "connecting" <==> c.socket == Some(Connecting)
    ensures s == "closing" <==> c.socket == Some(Closing)
  {
    match c.socket
    case None => "disconnected"
    case Some(Connecting) => "connecting"
    case Some(Open) => "connected"
    case Some(Closing) => "closing"
    case Some(Closed) => "disconnected"
  }
}

=== FILE: ui.dfy ===
/** The pure decisions of the page controller (public/js/UIManager.js): HTML
    escaping, avatar initials, the name-box rule, alert icons, the video grid
    class, and what the chat box and poll form hand to the session manager. */
module Ui {
  import opened Common
  import opened Wire
  import opened JsText
  import opened Actions

  // ---------------------------------------------------------------------
  // escapeHtml

  /** `s.replace(/c/g, rep)`: every occurrence of c replaced by rep. */
  function ReplaceAll(s: string, c: char, rep: string): (r: string)
    requires |rep| >= 1
    ensures |r| >= |s|
    ensures c !in rep ==> c !in r
    ensures forall d :: d !in s && d !in rep ==> d !in r
    decreases |s|
  {
    if s == [] then [] else (if s[0] == c then rep else [s[0]]) + ReplaceAll(s[1..], c, rep)
  }

  lemma {:induction false} ReplaceAllAppend(a: string, b: string, c: char, rep: string)
    requires |rep| >= 1
    ensures ReplaceAll(a + b, c, rep) == ReplaceAll(a, c, rep) + ReplaceAll(b, c, rep)
    decreases |a|
  {
    if a == [] {
      assert a + b == b;
    } else {
      assert (a + b)[0] == a[0];
      assert (a + b)[1..] == a[1..] + b;
      ReplaceAllAppend(a[1..], b, c, rep);
    }
  }

  lemma {:induction false} ReplaceAllAbsent(s: string, c: char, rep: string)
    requires |rep| >= 1 && c !in s
    ensures ReplaceAll(s, c, rep) == s
    decreases |s|
  {
    if s != [] {
      assert c !in s[1..];
      ReplaceAllAbsent(s[1..], c, rep);
    }
  }

  /** public/js/UIManager.js:947-954 — `escapeHtml`: five global
      replacements, ampersand first. */
  function EscapeHtml(s: string): (r: string)
    ensures '<' !in r && '>' !in r && '"' !in r && '\'' !in r
    ensures |r| >= |s|
  {
    ReplaceAll(ReplaceAll(ReplaceAll(ReplaceAll(ReplaceAll(s, '&', "&amp;"), '<', "&lt;"), '>', "&gt;"), '"', "&quot;"), '\'', "&#039;")
  }

  /** The entity each of the five special characters becomes. */
  function EscapeChar(c: char): string {
    if c == '&' then "&amp;"
    else if c == '<' then "&lt;"
    else if c == '>' then "&gt;"
    else if c == '"' then "&quot;"
    else if c == '\'' then "&#039;"
    else [c]
  }

  /** Escaping as a per-character map: each character replaced by its
      entity, independently of its neighbours. */
  function EscapeEach(s: string): string
    decreases |s|
  {
    if s == [] then [] else EscapeChar(s[0]) + EscapeEach(s[1..])
  }

  predicate Special(c: char) {
    c == '&' || c == '<' || c == '>' || c == '"' || c == '\''
  }

  /** One replacement on a one-character string. */
  lemma ReplaceOne(c: char, d: char, rep: string)
    requires |rep| >= 1
    ensures ReplaceAll([c], d, rep) == if c == d then rep else [c]
  {
    assert [c][1..] == [];
  }

  /** The replacements after the first one leave an entity alone. */
  lemma LaterStagesKeep(e: string)
    requires forall i :: 0 <= i < |e| ==> e[i] != '<' && e[i] != '>' && e[i] != '"' && e[i] != '\''
    ensures ReplaceAll(e, '<', "&lt;") == e && ReplaceAll(e, '>', "&gt;") == e
    ensures ReplaceAll(e, '"', "&quot;") == e
    ensures ReplaceAll(e, '\'', "&#039;") == e
  {
    ReplaceAllAbsent(e, '<', "&lt;");
    ReplaceAllAbsent(e, '>', "&gt;");
    ReplaceAllAbsent(e, '"', "&quot;");
    ReplaceAllAbsent(e, '\'', "&#039;");
  }

  /** The chain of replacements on a single character gives its entity:
      no later replacement touches what an earlier one wrote. */
  lemma EscapeOne(c: char)
    ensures EscapeHtml([c]) == EscapeChar(c)
  {
    var e := EscapeChar(c);
    assert forall i :: 0 <= i < |e| ==> e[i] != '<' && e[i] != '>' && e[i] != '"' && e[i] != '\'' by {
      if !Special(c) {
        assert e == [c];
      }
    }
    ReplaceOne(c, '&', "&amp;");
    var s1 := ReplaceAll([c], '&', "&amp;");
    ReplaceOne(c, '<', "&lt;");
    LaterStagesKeep(e);
    if c == '&' {
      assert s1 == e;
    } else {
      assert s1 == [c];
      ReplaceOne(c, '>', "&gt;");
      ReplaceOne(c, '"', "&quot;");
      ReplaceOne(c, '\'', "&#039;");
    }
  }

  /** Each replacement distributes over concatenation, so the whole chain
      does. */
  lemma EscapeAppend(a: string, b: string)
    ensures EscapeHtml(a + b) == EscapeHtml(a) + EscapeHtml(b)
  {
    var a1, b1 := ReplaceAll(a, '&', "&amp;"), ReplaceAll(b, '&', "&amp;");
    ReplaceAllAppend(a, b, '&', "&amp;");
    var a2, b2 := ReplaceAll(a1, '<', "&lt;"), ReplaceAll(b1, '<', "&lt;");
    ReplaceAllAppend(a1, b1, '<', "&lt;");
    var a3, b3 := ReplaceAll(a2, '>', "&gt;"), ReplaceAll(b2, '>', "&gt;");
    ReplaceAllAppend(a2, b2, '>', "&gt;");
    var a4, b4 := ReplaceAll(a3, '"', "&quot;"), ReplaceAll(b3, '"', "&quot;");
    ReplaceAllAppend(a3, b3, '"', "&quot;");
    ReplaceAllAppend(a4, b4, '\'', "&#039;");
  }

  /** Because '&' is replaced first, the chain of global replacements equals
      the per-character map: no entity is escaped twice. */
  lemma {:induction false} EscapeIsPerCharacter(s: string)
    ensures EscapeHtml(s) == EscapeEach(s)
    decreases |s|
  {
    if s == [] {
    } else {
      assert s == [s[0]] + s[1..];
      EscapeAppend([s[0]], s[1..]);
      EscapeOne(s[0]);
      EscapeIsPerCharacter(s[1..]);
    }
  }

  /** A string with none of the five characters is left as it is. */
  lemma EscapeIdentityOnPlainText(s: string)
    requires forall i :: 0 <= i < |s| ==> !Special(s[i])
    ensures EscapeHtml(s) == s
  {
    ReplaceAllAbsent(s, '&', "&amp;");
    ReplaceAllAbsent(s, '<', "&lt;");
    ReplaceAllAbsent(s, '>', "&gt;");
    ReplaceAllAbsent(s, '"', "&quot;");
    ReplaceAllAbsent(s, '\'', "&#039;");
  }

  // ---------------------------------------------------------------------
  // getInitials

  /** `words.map(w => w[0]).join('')`: the first character of each word;
      an empty word gives `undefined`, which `join` writes as nothing. */
  function Heads(words: seq<string>): string
    decreases |words|
  {
    if words == [] then []
    else (if words[0] == [] then [] else [words[0][0]]) + Heads(words[1..])
  }

  /** The characters that begin a word: a non-space at the start of s (when
      `afterSpace`) or right after a space. */
  function WordStarts(s: string, afterSpace: bool): string
    decreases |s|
  {
    if s == [] then []
    else (if afterSpace && s[0] != ' ' then [s[0]] else []) + WordStarts(s[1..], s[0] == ' ')
  }

  /** The heads of the pieces of `split(' ')` are exactly the word starts. */
  lemma {:induction false} HeadsOfSplit(s: string)
    ensures Heads(Split(s, ' ')) == WordStarts(s, true)
    ensures Heads(Split(s, ' ')[1..]) == WordStarts(s, false)
    decreases |s|
  {
    if s != [] {
      var rest := Split(s[1..], ' ');
      HeadsOfSplit(s[1..]);
      if s[0] == ' ' {
        assert Split(s, ' ') == [[]] + rest;
        assert ([[]] + rest)[1..] == rest;
      } else {
        var parts := [[s[0]] + rest[0]] + rest[1..];
        assert Split(s, ' ') == parts;
        assert parts[1..] == rest[1..];
      }
    }
  }

  /** public/js/UIManager.js:940-942 — `getInitials`: the upper-cased first
      letters of the space-separated words, at most two. */
  function Initials(name: string): (r: string)
    ensures |r| <= 2
    ensures r == Prefix(Upper(WordStarts(name, true)), 2)
  {
    HeadsOfSplit(name);
    Prefix(Upper(Heads(Split(name, ' '))), 2)
  }

  /** Word starts of a concatenation: the second part continues from the
      last character of the first. */
  lemma {:induction false} WordStartsAppend(a: string, b: string, afterSpace: bool)
    ensures WordStarts(a + b, afterSpace) ==
            WordStarts(a, afterSpace) + WordStarts(b, if a == [] then afterSpace else a[|a| - 1] == ' ')
    decreases |a|
  {
    if a == [] {
      assert a + b == b;
    } else {
      assert (a + b)[0] == a[0];
      assert (a + b)[1..] == a[1..] + b;
      WordStartsAppend(a[1..], b, a[0] == ' ');
    }
  }

  /** A run of spaces counts as one: doubling a space changes no initials. */
  lemma DoubledSpaceIgnored(a: string, b: string)
    ensures Initials(a + "  " + b) == Initials(a + " " + b)
  {
    WordStartsAppend(a, "  " + b, true);
    WordStartsAppend(a, " " + b, true);
    assert a + "  " + b == a + ("  " + b);
    assert a + " " + b == a + (" " + b);
    var x := if a == [] then true else a[|a| - 1] == ' ';
    assert ("  " + b)[1..] == " " + b;
    assert (" " + b)[1..] == b;
  }

  // ---------------------------------------------------------------------
  // validateNameInput

  const MinNameLength := 2
  const MaxNameLength := 20

  /** What `validateNameInput` returns and does to the two buttons. */
  datatype NameCheck = NameCheck(valid: bool, startDisabled: bool, joinDisabled: bool)

  /** public/js/UIManager.js:223-232 — the name box is valid iff its trimmed
      length is between 2 and 20, and both call buttons are disabled exactly
      when it is not. */
  function ValidateNameInput(value: string): (r: NameCheck)
    ensures r.valid <==> MinNameLength <= |Trim(value)| <= MaxNameLength
    ensures r.startDisabled == !r.valid && r.joinDisabled == !r.valid
  {
    var n := |Trim(value)|;
    var ok := n >= MinNameLength && n <= MaxNameLength;
    NameCheck(ok, !ok, !ok)
  }

  /** Surrounding whitespace never decides validity. */
  lemma ValidationIgnoresPadding(value: string)
    ensures ValidateNameInput(value) == ValidateNameInput(Trim(value))
  {
    TrimIdempotent(value);
  }

  // ---------------------------------------------------------------------
  // getAlertIcon

  const DefaultIcon := "bi-info-circle-fill"

  /** The own keys of the `icons` object literal and their values. */
  const Icons: map<string, string> := map[
    "success" := "bi-check-circle-fill",
    "danger" := "bi-exclamation-triangle-fill",
    "warning" := "bi-exclamation-circle-fill",
    "info" := DefaultIcon]

  /** The members every object literal inherits from `Object.prototype`;
      `icons[type]` finds them too. */
  const Inherited: set<string> := {
    "constructor", "__proto__", "toString", "toLocaleString", "valueOf",
    "hasOwnProperty", "isPrototypeOf", "propertyIsEnumerable",
    "__defineGetter__", "__defineSetter__", "__lookupGetter__", "__lookupSetter__"}

  /** What `icons[type] || default` evaluates to: a class name, or an
      inherited function or object, which is truthy and returned as is. */
  datatype IconValue = ClassName(name: string) | InheritedMember(key: string)

  /** public/js/UIManager.js:927-935 — `getAlertIcon` as written: the lookup
      reaches inherited members, so a type such as "toString" yields a
      function instead of a class name. */
  function AlertIconAsWritten(kind: string): (r: IconValue)
    ensures kind in Icons ==> r == ClassName(Icons[kind])
    ensures kind in Inherited ==> r == InheritedMember(kind)
    ensures kind !in Icons && kind !in Inherited ==> r == ClassName(DefaultIcon)
  {
    if kind in Icons then ClassName(Icons[kind])
    else if kind in Inherited then InheritedMember(kind)
    else ClassName(DefaultIcon)
  }

  /** `getAlertIcon` as evidently intended: the four own keys, and the
      default for anything else. */
  function AlertIcon(kind: string): (r: string)
    ensures r in Icons.Values
    ensures kind in Icons ==> r == Icons[kind]
    ensures kind !in Icons ==> r == DefaultIcon
  {
    assert Icons["info"] == DefaultIcon;
    if kind in Icons then Icons[kind] else DefaultIcon
  }

  /** The finding: "toString" gets no class name from the code as written,
      while the corrected lookup gives the default icon. */
  lemma InheritedKeyLeaks()
    ensures AlertIconAsWritten("toString") == InheritedMember("toString")
    ensures AlertIcon("toString") == DefaultIcon
  {
  }

  /** Off the inherited names, the code as written and the corrected lookup
      agree. */
  lemma AlertIconAgreesOffPrototype(kind: string)
    requires kind !in Inherited
    ensures AlertIconAsWritten(kind) == ClassName(AlertIcon(kind))
  {
  }

  // ---------------------------------------------------------------------
  // updateGridLayout

  const LayoutClasses: set<string> := {"layout-1", "layout-2", "layout-3-4"}

  /** public/js/UIManager.js:619-631 — `updateGridLayout` on the container's
      class list: the three layout classes are removed, then 'layout-1' is
      added for one video and 'layout-2' for two; other classes stay. */
  function GridLayout(count: nat, classes: set<string>): (r: set<string>)
    ensures r - LayoutClasses == classes - LayoutClasses
    ensures "layout-1" in r <==> count == 1
    ensures "layout-2" in r <==> count == 2
    ensures "layout-3-4" !in r
  {
    var kept := classes - LayoutClasses;
    if count == 1 then kept + {"layout-1"}
    else if count == 2 then kept + {"layout-2"}
    else kept
  }

  /** Re-running the layout for the same count changes nothing. */
  lemma GridLayoutIdempotent(count: nat, classes: set<string>)
    ensures GridLayout(count, GridLayout(count, classes)) == GridLayout(count, classes)
  {
  }

  // ---------------------------------------------------------------------
  // sendChatMessage and handleStartPoll

  /** The peer chosen for a private message. */
  datatype Target = Target(id: Id, name: string)

  /** The chat input box and the private-chat target. */
  datatype ChatBox = ChatBox(input: string, target: Option<Target>)

  /** public/js/UIManager.js:245-259 — `sendChatMessage`: a blank message
      does nothing; otherwise the trimmed text goes privately to the target
      (which is then cleared) or to everyone, and the box is emptied. */
  function SendChatMessage(box: ChatBox): (r: (ChatBox, Option<Action>))
    ensures Trim(box.input) == [] ==> r == (box, None)
    ensures Trim(box.input) != [] ==> r.0 == ChatBox("", None) && r.1.Some?
    ensures r.1.Some? ==> match r.1.value
      case SendPrivateChatAction(to, text) => box.target.Some? && to == box.target.value.id && text == Trim(box.input)
      case SendChatAction(text) => box.target.None? && text == Trim(box.input)
      case _ => false
  {
    var message := Trim(box.input);
    if message == [] then (box, None)
    else if box.target.Some? then (ChatBox("", None), Some(SendPrivateChatAction(box.target.value.id, message)))
    else (ChatBox("", None), Some(SendChatAction(message)))
  }

  /** A private message goes to the target once: the next message is public. */
  lemma PrivateTargetUsedOnce(box: ChatBox, next: string)
    requires box.target.Some? && Trim(box.input) != [] && Trim(next) != []
    ensures var (b1, a1) := SendChatMessage(box);
            var (_, a2) := SendChatMessage(b1.(input := next));
            a1 == Some(SendPrivateChatAction(box.target.value.id, Trim(box.input)))
            && a2 == Some(SendChatAction(Trim(next)))
  {
  }

  /** public/js/UIManager.js:299-310 — `handleStartPoll`: a poll is started
      only when the question and both options are non-blank, with the
      trimmed texts and exactly the two options in order. */
  function HandleStartPoll(question: string, option1: string, option2: string): (r: Option<Action>)
    ensures r.Some? <==> Trim(question) != [] && Trim(option1) != [] && Trim(option2) != []
    ensures r.Some? ==> r.value == StartPollAction(Poll(Trim(question), [Trim(option1), Trim(option2)]))
  {
    var q, o1, o2 := Trim(question), Trim(option1), Trim(option2);
    if q != [] && o1 != [] && o2 != [] then Some(StartPollAction(Poll(q, [o1, o2]))) else None
  }
}

=== FILE: wire.dfy ===
/** The JSON envelopes `{type, ...fields}` exchanged over the signaling socket,
    as tagged unions. A field the sender left out is modelled by the value the
    receiver would treat the same way (see README). */
module Wire {
  import opened Common

  /** Free-form payload fields of a relayed signaling message, keyed by name. */
  type Fields = map<string, string>

  /** The three point-to-point negotiation messages the server relays. */
  datatype SignalKind = Offer | Answer | IceCandidate

  datatype Poll = Poll(question: string, options: seq<string>)

  datatype Vote = Vote(pollId: string, optionIndex: string)

  /** Messages a client sends to the server, by their `type` tag. */
  datatype ClientMsg =
    | StartCall(name: string)                              // 'start-call'
    | RequestToJoin(name: string, callId: Option<string>)  // 'request-to-join'
    | ApproveJoin(guestId: Id)                             // 'approve-join'
    | RejectJoin(guestId: Id)                              // 'reject-join'
    | KickUser(kickId: Id)                                 // 'kick-user'
    | RemoteMute(muteId: Id)                               // 'remote-mute'
    | ToggleRemoteMute(muteId: Id, shouldMute: bool)       // 'toggle-remote-mute'
    | Signal(kind: SignalKind, body: Fields)               // 'offer' | 'answer' | 'ice-candidate'
    | ChatMessage(message: string)                         // 'chat-message'
    | PrivateMessage(to: Id, message: string)              // 'private-message'
    | HandState(raised: bool)                              // 'hand-state'
    | CreatePoll(poll: Poll)                               // 'create-poll'
    | SubmitVote(vote: Vote)                               // 'submit-vote'
    | EndPoll(pollId: string)                              // 'end-poll'
    | LeaveCall                                            // 'leave-call'
    | Unknown(tag: string)                                 // any other tag

  /** One roster entry of a `join-approved` message. */
  datatype PeerEntry = PeerEntry(id: Id, name: string)

  /** Messages a client receives, by their `type` tag. */
  datatype ServerMsg =
    | AssignId(id: Id)                                     // 'assign-id'
    | SetHost                                              // 'set-host' (no callId field)
    | JoinRequest(guestId: Id, guestName: string)          // 'request-to-join'
    | JoinApproved(peers: seq<PeerEntry>)                  // 'join-approved'
    | JoinRejected(reason: string)                         // 'join-rejected'
    | PeerJoined(peerId: Id, peerName: string)             // 'peer-joined'
    | PeerDisconnected(peerId: Id, peerName: string)       // 'peer-disconnected'
    | YouWereKicked                                        // 'you-were-kicked'
    | YouWereMuted                                         // 'you-were-muted'
    | PeerMuted(peerId: Id, mutedName: Option<string>)     // 'peer-muted'
    | Relayed(kind: SignalKind, fields: Fields)            // relayed 'offer' | 'answer' | 'ice-candidate'
    | Chat(fromId: Id, fromName: string, message: string)  // 'chat-message'
    | NewPoll(pollId: string)                              // 'new-poll'
    | Notice(tag: string)                                  // a tag the client only shows in its UI
}
